=== FILE: README.md ===
# Sliding-puzzle solver, modelled in Dafny

This project models a solver for sliding-tile puzzles (the 8-puzzle and
boards of other sizes). The solver is `8puzzle.py`. It reads a start board
whose empty cell is written 0, picks a solver by mode, searches for a goal
board and prints the boards from the start to the goal with the depth.

- Mode 0 runs uniform-cost search over a FIFO queue.
- Modes 1 and 2 run A* over a priority queue ordered by `f = w + h`. Here
  `w` is the number of moves from the start, and `h` is either the
  misplaced-tiles count or the Manhattan distance.
- Both searches remember the token of every board they have queued and
  never queue a board whose token they have seen. The token is the cells
  written as decimal numbers, joined in row-major order.

The model is split into these modules:

- `Grids` (grids.dfy): boards as values, flattening, and the cell swap.
- `Board` (board.dfy): the per-board routines. These are the empty-cell
  search, the two heuristics, the token and the goal test. Each routine is
  a method with a loop. The two heuristics and the token are proved equal
  to recursive specification functions. The empty-cell search is proved
  against an explicit postcondition, and the goal test against a
  quantified predicate.
- `Nodes` (nodes.dfy): the search node and its successor generator.
  - A node is a value: once built it never changes.
  - Its parent link is either the root marker `Init` or the parent node.
  - Its `f` is absent when no heuristic is selected.
- `Lineage` (lineage.dfy): what every queued node satisfies, and the
  token bookkeeping.
  - Every queued node descends from the root through legal slides.
  - The tokens of the boards of the root's shape and values form a finite
    set, which bounds both searches.
  - Queued boards have pairwise different tokens.
- `Search` (search.dfy): the two solvers as methods with their queues and
  loop invariants.
  - The FIFO queue is a sequence.
  - The priority queue is a multiset of (priority, node) entries.
  - A* tests the queue object itself, which is always true. Its `get` on
    an empty queue waits forever, so that ending is the outcome `Blocked`.
- `Paths` (paths.dfy): the driver. It builds the root node, dispatches on
  the mode, walks the parent links back from the goal, and shows that the
  printed boards are a chain of legal slides. Each step exchanges the
  empty cell with a cell that shares a side with it.
- `Reach` (reach.dfy): what an exhausted search means. On boards with
  single-digit cells and one empty cell, no goal is reachable by legal
  moves when uniform-cost search reports no solution, or when A* waits on
  an empty queue.

The goal test and the misplaced-tiles count are modelled as the code
computes them, not as "the tiles are in order":

- The goal test checks that the first cell is not empty and that the
  flattened board does not decrease up to the second-to-last cell. The
  last cell is never examined.
- The misplaced count compares cells 1 to n-1 with their 1-based
  positions. The last cell is never examined.
- Tokens are ambiguous once a cell has two digits: `[[1, 12]]` and
  `[[11, 2]]` share the token "112".
- The Manhattan distance finds a tile's home row by dividing by the number
  of rows, where row-major order needs the number of columns. The two agree
  only on square boards. On the 2-by-3 goal board `[[1, 2, 3], [4, 5, 0]]`
  the sum is 2.

These quirks are kept and stated as lemmas.

## Model

| member | source | states |
|---|---|---|
| Board.FindZeroIndex | 8puzzle.py:13-17 | Returns the first cell holding 0 in row-major order. Returns nothing exactly when no cell holds 0. |
| Board.Misplaced | 8puzzle.py:50-58 | Counts the positions i in 1..n-1 of the flattened board whose value is not i. The last cell is never read. |
| Board.MisplacedBounds | 8puzzle.py:50-58 | The count lies between 0 and the number of cells minus one. |
| Board.MisplacedZeroIff | 8puzzle.py:50-58 | The count is zero exactly when every cell before the last holds its 1-based position. |
| Board.MisplacedIgnoresLast | 8puzzle.py:50-58 | The value in the last cell never changes the count. |
| Board.MisplacedZeroOnPermutation | 8puzzle.py:50-58 | On a board of at least two cells holding 0..n-1 once each, the count is zero exactly when the goal test passes. |
| Board.Manhattan | 8puzzle.py:60-74 | Sums, over the non-empty cells, the distance to home row (v-1) div rows and home column (v-1) mod cols. |
| Board.ManhattanZeroIff | 8puzzle.py:60-74 | The sum is zero exactly when every non-empty cell is at its home position. |
| Board.ManhattanOfStandardGoal | 8puzzle.py:60-74 | On a square board, 1..N·N-1 followed by 0 has sum zero. |
| Board.ManhattanZeroOnPermutation | 8puzzle.py:60-74 | On a square board of at least two rows holding 0..n-1 once each, the sum is zero exactly when the goal test passes. |
| Board.ManhattanNonSquareGoal | 8puzzle.py:61-72 | On the 2-by-3 board 1..5 followed by 0, the goal test passes but the sum is 2. |
| Board.GenToken | 8puzzle.py:77-83 | Returns the decimal strings of the cells, joined in row-major order. |
| Board.TokenInjectiveOnDigits | 8puzzle.py:77-83 | On two boards of the same shape with single-digit cells, the tokens are equal exactly when the boards are equal. |
| Board.TokenCollision | 8puzzle.py:77-83 | Two different boards with two-digit cells share a token. |
| Board.CheckGoal | 8puzzle.py:86-97 | True exactly when the first cell is not 0 and the flattened board does not decrease up to its second-to-last cell. |
| Board.GoalIgnoresLast | 8puzzle.py:86-97 | The value in the last cell never changes the answer. |
| Board.GoalOnPermutation | 8puzzle.py:86-97 | On a board of at least two cells holding 0..n-1 once each, the test passes exactly on 1..n-1 followed by 0. |
| Nodes.NewNode | 8puzzle.py:36-47 | Stores its arguments. f is absent exactly in mode 0; otherwise f is w plus the mode's heuristic. |
| Nodes.CostBounds | 8puzzle.py:43-47 | f is at least w. With misplaced tiles, f is at most w plus the number of cells minus one. |
| Nodes.CanMoveIffInBounds | 8puzzle.py:102-117 | A slide's guard holds exactly when the neighbour in that direction lies on the board. |
| Nodes.MovesPossible | 8puzzle.py:99-122 | At most four directions are generated, exactly those whose slide is possible. |
| Nodes.MovesInOrder | 8puzzle.py:99-122 | Directions are generated at most once each, in the order left, right, up, down. |
| Nodes.SlideFacts | 8puzzle.py:103-105 | A child has the empty-cell position moved to the neighbour and the two cells exchanged. It has one more move, the same mode and the node as parent. |
| Nodes.SlideChild | 8puzzle.py:103-105 | Builds the child of one possible slide, the same child as the slide in that direction. Its board is the parent's with the empty cell and the neighbour exchanged, its position is the neighbour's, with one more move and the node as parent. |
| Nodes.MakeMoves | 8puzzle.py:99-122 | Returns the successors: one child per possible slide, in generation order. |
| Nodes.SuccessorsInOrder | 8puzzle.py:99-122 | There are at most four children, and the k-th child is the slide in the k-th possible direction. |
| Nodes.SuccessorsExactly | 8puzzle.py:99-122 | A node is a child exactly when it is the slide in some direction whose guard holds. |
| Nodes.SuccessorCells | 8puzzle.py:99-122 | Children hold only values that the parent's board holds. |
| Nodes.SlideKeepsBlankUnique | 8puzzle.py:99-122 | If the cached position is the only empty cell, the same holds for every child, and each child's board differs from its parent's. |
| Lineage.ChildReached | 8puzzle.py:99-122 | A child of a node below the root is below the root, with the root's shape and cell values. |
| Lineage.InUniverse | 8puzzle.py:77-83 | The token of every node below the root lies in a finite set fixed by the root's shape and values. |
| Lineage.TokensOfCard | 8puzzle.py:143-146 | When queued boards have pairwise different tokens, there are as many tokens as boards. |
| Lineage.DistinctCons | 8puzzle.py:143-146 | A board whose token is new can join a list of boards with pairwise different tokens without creating a repeat. |
| Search.Discover | 8puzzle.py:143-146 | Keeps the children whose token is not yet seen, in order, adding each kept token to the seen set. |
| Search.UnseenFacts | 8puzzle.py:143-146 | Kept children have tokens unseen before and pairwise different. Afterwards every child's token is seen. |
| Search.DiscoveredBound | 8puzzle.py:124-152 | Queued boards have pairwise different tokens. The seen set is exactly their tokens, and it is finite, which bounds the search. |
| Search.DiscoverStep | 8puzzle.py:137-149 | Expanding a queued node keeps every queued node well formed and below the root with different tokens. Every child's token is then seen. |
| Search.UniformStep | 8puzzle.py:137-149 | One round of the loop keeps the invariant. The queue is the unexpanded suffix of the queued nodes. Their move counts do not decrease, no queued node is more than one move deeper than the front, and expanded nodes are non-goals. |
| Search.UniformCost | 8puzzle.py:124-152 | Never blocks, and the root is queued first. A returned goal is the first goal dequeued, and no queued board with fewer moves is a goal. No solution only once every queued board is expanded, none is a goal and every child's token is seen. A goal root is returned at once. The queue it leaves is never longer than the reported maximum. |
| Search.UniformEnds | 8puzzle.py:124-152 | The driver can use the result: never a wait, and any goal returned is a goal below the root. |
| Search.PopMin | 8puzzle.py:7-10 | Removes one entry of least priority. Only the priority is compared. |
| Search.ItemsOfOnce | 8puzzle.py:171-175 | Entries queued for children with pairwise different tokens occur once each. |
| Search.AStarStep | 8puzzle.py:162-180 | One round keeps the invariant. Each unexpanded queued node has one entry carrying its f, no expanded token is queued, and expanded nodes are non-goals. |
| Search.AStarGoal | 8puzzle.py:166-168 | The returned goal had the least priority among the entries left behind. |
| Search.AStarBlocked | 8puzzle.py:164-165 | An empty queue means every queued node is expanded, none is a goal, and every child's token is seen. |
| Search.AStar | 8puzzle.py:154-182 | Never "no solution". A returned goal was queued and is a goal. The queue it leaves holds one entry, carrying its f, for every queued node other than the goal that was not expanded, and each entry's priority is at least the goal's f. A wait on the empty queue comes only after exhaustion. A goal root is returned at once. |
| Search.AStarLeastGoal | 8puzzle.py:7-10 | No queued goal board has a smaller f than the goal returned. |
| Search.AStarEnds | 8puzzle.py:154-182 | The driver can use the result: never "no solution", and any goal returned is a goal below the root. |
| Paths.WalkBack | 8puzzle.py:211-218 | Collects the boards along the parent links from the goal, stopping at the node whose parent is the root marker. The depth is their number. |
| Lineage.BlankKept | 8puzzle.py:99-122 | If the root's cached position holds the empty cell, so does every node below it. |
| Paths.TrailIsRoute | 8puzzle.py:211-218 | Below a root whose cached position holds the empty cell, the depth equals the node's move count. The start board followed by the walk read backwards is a chain of single slides ending at the node's board. Each slide exchanges the empty cell with a neighbour. |
| Paths.Solve | 8puzzle.py:196-224 | Reports a missing empty cell exactly when no cell holds 0. No goal is reported only in mode 0 and a wait only in the other modes. Otherwise it prints start..goal as a chain of slides, one board per move of the depth. |
| Reach.ExhaustedUnreachable | 8puzzle.py:137-149 | From the root of an exhausted queue, no sequence of legal moves reaches a goal (single-digit board, one empty cell). |
| Reach.UniformNoSolution | 8puzzle.py:150-152 | Uniform-cost search reports no solution only when no goal is reachable from the start (single-digit board, one empty cell). |
| Reach.AStarBlockedUnreachable | 8puzzle.py:164-165 | A* waits on an empty queue only when no goal is reachable from the start (single-digit board, one empty cell). |

## Left out

- Reading the board and the mode, the timer and all printing are not modelled (lines 19-32, 139, 151, 169, 181, 186-195, 198-199, 208, 220-224). The board and the mode are parameters of `Paths.Solve`.
- Modes other than 0, 1 and 2 are not modelled. The program would build a node without `f`, and A* fails reading it. The mode is a three-valued type here.
- Ragged boards are not modelled: `Paths.Solve` requires a rectangular board. The program does not check its input.
- Copies and aliasing are not modelled. The program deep-copies a board before each slide, so boards are values here.
- The thread-safety of the queue classes is not modelled.
- Paths.Solve: a start board without a 0 ends as `NoEmptyCell`, where the program fails unpacking the result of `find_zero_index`. A uniform-cost search without a goal ends as `NoGoal`, where the program fails walking from the missing node at line 215.
- Search.PopMin: which of several entries of equal priority comes out is left open. The program's heap order is not modelled.
- Search.Discover: the solvers enqueue each unseen child as soon as they meet it. The model collects the unseen children and enqueues them together, which gives the same queue because nothing is dequeued in between.
- Search.AStar: does not bound the reported maximum queue size from above, and does not claim that the goal returned has the fewest moves.
- Board.GoalOnPermutation, Board.MisplacedZeroOnPermutation: stated for boards of at least two cells. On the one-cell board `[[0]]` the misplaced count is zero, but the goal test fails because the first cell is empty.
- Board.ManhattanZeroOnPermutation: stated for square boards of at least two rows. On the 1-by-1 board `[[0]]` the sum is zero but the goal test fails. On boards that are not square the goal board can have a positive sum (`Board.ManhattanNonSquareGoal`).
- Search.UniformCost: the fewest-moves guarantee is stated only among the queued boards, not among all reachable boards.
- Reach.AStarBlockedUnreachable: stated only for boards with single-digit cells and exactly one empty cell at the recorded position, for the same reason as the next line.
- Reach.UniformNoSolution: stated only for boards with single-digit cells and exactly one empty cell at the recorded position. On other boards tokens can collide, and the search may skip boards it never saw.

=== FILE: board.dfy ===
/**
 * The read-only scorers of a board: locating the empty cell, the two
 * heuristics, the deduplication token and the goal test. Each is a loop
 * over the cells with a local accumulator, specified by a recursive
 * function over the same cells.
 */
module Board {
  import opened Wrappers
  import opened Grids

  // ---------------------------------------------------------------- empty cell

  /** Row-major search for the first cell holding 0; None when there is none. */
  method FindZeroIndex(puzzle: Grid) returns (pos: Option<(int, int)>)
    ensures pos.Some? ==>
      InGrid(puzzle, pos.value.0, pos.value.1) && puzzle[pos.value.0][pos.value.1] == 0
    ensures pos.Some? ==> forall i, j :: InGrid(puzzle, i, j) && puzzle[i][j] == 0 ==>
      pos.value.0 < i || (pos.value.0 == i && pos.value.1 <= j)
    ensures pos.None? <==> forall i, j :: InGrid(puzzle, i, j) ==> puzzle[i][j] != 0
  {
    var r := 0;
    while r < |puzzle|
      invariant 0 <= r <= |puzzle|
      invariant forall i, j :: 0 <= i < r && 0 <= j < |puzzle[i]| ==> puzzle[i][j] != 0
    {
      var c := 0;
      while c < |puzzle[r]|
        invariant 0 <= c <= |puzzle[r]|
        invariant forall j :: 0 <= j < c ==> puzzle[r][j] != 0
      {
        if puzzle[r][c] == 0 {
          return Some((r, c));
        }
        c := c + 1;
      }
      r := r + 1;
    }
    return None;
  }

  // ---------------------------------------------------------------- misplaced tiles

  /**
   * Number of positions i in [1, k) whose flattened predecessor cell
   * s[i - 1] is not i. The final cell of the board is never inspected.
   */
  function MisplacedUpTo(s: seq<int>, k: nat): (n: nat)
    requires k <= |s|
    ensures n <= if k == 0 then 0 else k - 1
  {
    if k <= 1 then 0
    else MisplacedUpTo(s, k - 1) + (if s[k - 2] != k - 1 then 1 else 0)
  }

  /** The misplaced-tile heuristic of a board. */
  function MisplacedCount(g: Grid): nat
  {
    MisplacedUpTo(Flatten(g), |Flatten(g)|)
  }

  method Misplaced(puzzle: Grid) returns (h: int)
    ensures h == MisplacedCount(puzzle)
  {
    var flat := Flatten(puzzle);
    h := 0;
    var i := 1;
    while i < |flat|
      invariant 1 <= i && (|flat| >= 1 ==> i <= |flat|)
      invariant h == MisplacedUpTo(flat, if i <= |flat| then i else 0)
    {
      if i != flat[i - 1] {
        h := h + 1;
      }
      i := i + 1;
    }
  }

  lemma {:induction false} MisplacedBounds(g: Grid)
    requires Flatten(g) != []
    ensures 0 <= MisplacedCount(g) <= |Flatten(g)| - 1
  {
  }

  /** The count is zero exactly when every inspected cell holds its own index plus one. */
  lemma {:induction false} MisplacedZeroIff(s: seq<int>, k: nat)
    requires k <= |s|
    ensures MisplacedUpTo(s, k) == 0 <==> forall i :: 0 <= i < k - 1 ==> s[i] == i + 1
  {
    if k > 1 {
      MisplacedZeroIff(s, k - 1);
    }
  }

  /** The count only reads the cells before position k - 1. */
  lemma {:induction false} MisplacedReadsPrefix(s: seq<int>, t: seq<int>, k: nat)
    requires 1 <= k <= |s| && k <= |t| && s[..k - 1] == t[..k - 1]
    ensures MisplacedUpTo(s, k) == MisplacedUpTo(t, k)
  {
    if k > 1 {
      assert s[..k - 2] == s[..k - 1][..k - 2];
      assert t[..k - 2] == t[..k - 1][..k - 2];
      assert s[k - 2] == s[..k - 1][k - 2];
      assert t[k - 2] == t[..k - 1][k - 2];
      MisplacedReadsPrefix(s, t, k - 1);
    }
  }

  /** The last cell of the board never influences the count. */
  lemma MisplacedIgnoresLast(s: seq<int>, x: int, y: int)
    ensures MisplacedUpTo(s + [x], |s| + 1) == MisplacedUpTo(s + [y], |s| + 1)
  {
    assert (s + [x])[..|s|] == s == (s + [y])[..|s|];
    MisplacedReadsPrefix(s + [x], s + [y], |s| + 1);
  }

  // ---------------------------------------------------------------- Manhattan distance

  function Abs(x: int): nat {
    if x < 0 then -x else x
  }

  /**
   * Distance of value v at (i, j) from its home row (v - 1) div rows and
   * home column (v - 1) mod cols; the empty cell costs nothing. Python's
   * floor division and modulus agree with Dafny's for a positive divisor.
   */
  function CellCost(v: int, i: int, j: int, rows: int, cols: int): nat
    requires rows > 0 && cols > 0
  {
    if v == 0 then 0 else Abs(i - (v - 1) / rows) + Abs(j - (v - 1) % cols)
  }

  /** Cost of the first k cells of row i. */
  function RowCost(g: Grid, i: nat, k: nat): nat
    requires IsRect(g) && i < |g| && k <= |g[0]|
  {
    if k == 0 then 0 else RowCost(g, i, k - 1) + CellCost(g[i][k - 1], i, k - 1, |g|, |g[0]|)
  }

  /** Cost of the first k rows. */
  function GridCost(g: Grid, k: nat): nat
    requires IsRect(g) && k <= |g|
  {
    if k == 0 then 0 else GridCost(g, k - 1) + RowCost(g, k - 1, |g[0]|)
  }

  /** The Manhattan-distance heuristic of a board. */
  function ManhattanSum(g: Grid): nat
    requires IsRect(g)
  {
    GridCost(g, |g|)
  }

  method Manhattan(puzzle: Grid) returns (h: int)
    requires IsRect(puzzle)
    ensures h == ManhattanSum(puzzle)
  {
    var rowSize := |puzzle|;
    var colSize := |puzzle[0]|;
    h := 0;
    var i := 0;
    while i < rowSize
      invariant 0 <= i <= rowSize
      invariant h == GridCost(puzzle, i)
    {
      var j := 0;
      while j < colSize
        invariant 0 <= j <= colSize
        invariant h == GridCost(puzzle, i) + RowCost(puzzle, i, j)
      {
        var val := puzzle[i][j];
        if val != 0 {
          var actualR := (val - 1) / rowSize;
          var actualC := (val - 1) % colSize;
          h := h + (Abs(i - actualR) + Abs(j - actualC));
        }
        j := j + 1;
      }
      i := i + 1;
    }
  }

  /** True when every non-empty cell sits at its home position. */
  predicate AllHome(g: Grid)
    requires IsRect(g)
  {
    forall i, j :: 0 <= i < |g| && 0 <= j < |g[0]| ==> CellCost(g[i][j], i, j, |g|, |g[0]|) == 0
  }

  lemma {:induction false} RowCostZeroIff(g: Grid, i: nat, k: nat)
    requires IsRect(g) && i < |g| && k <= |g[0]|
    ensures RowCost(g, i, k) == 0 <==>
      forall j :: 0 <= j < k ==> CellCost(g[i][j], i, j, |g|, |g[0]|) == 0
  {
    if k > 0 {
      RowCostZeroIff(g, i, k - 1);
    }
  }

  lemma {:induction false} GridCostZeroIff(g: Grid, k: nat)
    requires IsRect(g) && k <= |g|
    ensures GridCost(g, k) == 0 <==>
      forall i, j :: 0 <= i < k && 0 <= j < |g[0]| ==> CellCost(g[i][j], i, j, |g|, |g[0]|) == 0
  {
    if k > 0 {
      GridCostZeroIff(g, k - 1);
      RowCostZeroIff(g, k - 1, |g[0]|);
    }
  }

  /** The Manhattan sum vanishes exactly when every tile is at home. */
  lemma ManhattanZeroIff(g: Grid)
    requires IsRect(g)
    ensures ManhattanSum(g) == 0 <==> AllHome(g)
  {
    GridCostZeroIff(g, |g|);
  }

  /** The square board laid out 1, 2, ..., N*N - 1 in row-major order with 0 last. */
  predicate IsStandardGoal(g: Grid)
  {
    IsRect(g) && |g| == |g[0]| &&
    forall i, j :: 0 <= i < |g| && 0 <= j < |g| ==>
      g[i][j] == if i == |g| - 1 && j == |g| - 1 then 0 else i * |g| + j + 1
  }

  lemma MulAtLeast(d: int, n: int)
    requires d >= 1 && n > 0
    ensures d * n >= n
  {
  }

  /** Row-major position i * n + j has quotient i and remainder j. */
  lemma DivModOfRowMajor(i: int, j: int, n: int)
    requires n > 0 && 0 <= i && 0 <= j < n
    ensures (i * n + j) / n == i && (i * n + j) % n == j
  {
    var a := i * n + j;
    var q, r := a / n, a % n;
    assert a == q * n + r && 0 <= r < n;
    var d := q - i;
    assert d * n == q * n - i * n;
    assert d * n == j - r;
    if d >= 1 {
      MulAtLeast(d, n);
    } else if d <= -1 {
      MulAtLeast(-d, n);
    }
  }

  lemma MulLe(a: int, b: int, n: int)
    requires 0 <= a <= b && n >= 0
    ensures a * n <= b * n
  {
    assert b * n - a * n == (b - a) * n;
  }

  /** On an n-by-n board, position i * n + j lies below n * n and is the last one only for the last cell. */
  lemma RowMajorBound(i: int, j: int, n: int)
    requires 0 <= i < n && 0 <= j < n
    ensures 0 <= i * n + j <= n * n - 1
    ensures i * n + j == n * n - 1 <==> i == n - 1 && j == n - 1
  {
    MulLe(0, i, n);
    MulLe(i, n - 1, n);
    assert (n - 1) * n == n * n - n;
    if i < n - 1 {
      MulLe(i, n - 2, n);
      assert (n - 2) * n == n * n - 2 * n;
    }
  }

  /** A position below n * n is row k / n, column k % n of an n-by-n board. */
  lemma RowMajorSplit(k: int, n: int)
    requires n > 0 && 0 <= k < n * n
    ensures 0 <= k / n < n && 0 <= k % n < n && k == (k / n) * n + k % n
  {
    if k / n >= n {
      MulLe(n, k / n, n);
    }
  }

  /** A board of r rows of c cells flattens to r * c cells. */
  lemma {:induction false} FlattenSize(g: Grid, c: nat)
    requires HasShape(g, |g|, c)
    ensures |Flatten(g)| == |g| * c
  {
    if g != [] {
      var m := |g| - 1;
      FlattenSize(g[..m], c);
      assert (m + 1) * c == m * c + c;
    }
  }

  /** Cell (i, j) of a board with c columns is entry i * c + j of the flattening. */
  lemma {:induction false} FlattenAt(g: Grid, c: nat, i: int, j: int)
    requires HasShape(g, |g|, c) && 0 <= i < |g| && 0 <= j < c
    ensures 0 <= i * c + j < |Flatten(g)| && Flatten(g)[i * c + j] == g[i][j]
    decreases |g|
  {
    var m := |g| - 1;
    var init := g[..m];
    FlattenSize(init, c);
    FlattenSize(g, c);
    assert Flatten(g) == Flatten(init) + g[m];
    var p := i * c + j;
    MulLe(0, i, c);
    if i < m {
      FlattenAt(init, c, i, j);
      assert init[i] == g[i];
    } else {
      assert p - |Flatten(init)| == j;
    }
  }

  lemma ManhattanOfStandardGoal(g: Grid)
    requires IsStandardGoal(g)
    ensures ManhattanSum(g) == 0
  {
    var n := |g|;
    forall i, j | 0 <= i < n && 0 <= j < n ensures CellCost(g[i][j], i, j, n, n) == 0 {
      if g[i][j] != 0 {
        DivModOfRowMajor(i, j, n);
      }
    }
    ManhattanZeroIff(g);
  }

  /**
   * The home row divides by the number of rows, so on a board that is not
   * square the goal layout 1, 2, ..., n - 1, 0 can have a positive sum.
   */
  lemma ManhattanNonSquareGoal()
    ensures var g := [[1, 2, 3], [4, 5, 0]];
      IsRect(g) && IsGoal(g) && ManhattanSum(g) == 2
  {
    var g: Grid := [[1, 2, 3], [4, 5, 0]];
    var top: Grid := [[1, 2, 3]];
    assert g[..1] == top && top[..0] == [];
    assert Flatten(g) == [1, 2, 3, 4, 5, 0];
    assert InOrderAt(Flatten(g), 1) && InOrderAt(Flatten(g), 2) && InOrderAt(Flatten(g), 3) && InOrderAt(Flatten(g), 4);
    assert ManhattanSum(g) == 2;
  }

  // ---------------------------------------------------------------- token

  function DigitChar(d: int): char
    requires 0 <= d < 10
  {
    ('0' as int + d) as char
  }

  /** Decimal numeral of a natural number, most significant digit first. */
  function NatStr(n: nat): string
    decreases n
  {
    if n < 10 then [DigitChar(n)] else NatStr(n / 10) + [DigitChar(n % 10)]
  }

  /** Python's str() of an int: an optional minus sign and the decimal numeral. */
  function DecStr(n: int): string
  {
    if n < 0 then "-" + NatStr(-n) else NatStr(n)
  }

  function FlatToken(s: seq<int>): string
  {
    if s == [] then "" else FlatToken(s[..|s| - 1]) + DecStr(s[|s| - 1])
  }

  /** The deduplication token: the cells' numerals concatenated in row-major order. */
  function Token(g: Grid): string
  {
    FlatToken(Flatten(g))
  }

  lemma FlatTokenStep(done: seq<int>, row: seq<int>, j: nat)
    requires j < |row|
    ensures FlatToken(done + row[..j + 1]) == FlatToken(done + row[..j]) + DecStr(row[j])
  {
    var s := done + row[..j];
    assert done + row[..j + 1] == s + [row[j]];
    assert (s + [row[j]])[..|s|] == s;
  }

  method GenToken(puzzle: Grid) returns (token: string)
    ensures token == Token(puzzle)
  {
    token := "";
    var i := 0;
    while i < |puzzle|
      invariant 0 <= i <= |puzzle|
      invariant token == FlatToken(Flatten(puzzle[..i]))
    {
      ghost var done := Flatten(puzzle[..i]);
      var row := puzzle[i];
      var j := 0;
      assert done + row[..0] == done;
      while j < |row|
        invariant 0 <= j <= |row|
        invariant token == FlatToken(done + row[..j])
      {
        FlatTokenStep(done, row, j);
        token := token + DecStr(row[j]);
        j := j + 1;
      }
      FlattenSnoc(puzzle, i);
      assert row[..j] == row;
      i := i + 1;
    }
    assert puzzle[..i] == puzzle;
  }

  /** With single-digit cells the token has one character per cell. */
  lemma {:induction false} FlatTokenOfDigits(s: seq<int>)
    requires forall k :: 0 <= k < |s| ==> 0 <= s[k] <= 9
    ensures |FlatToken(s)| == |s|
    ensures forall k :: 0 <= k < |s| ==> FlatToken(s)[k] == DigitChar(s[k])
  {
    if s != [] {
      FlatTokenOfDigits(s[..|s| - 1]);
    }
  }

  const Digits: set<int> := {0, 1, 2, 3, 4, 5, 6, 7, 8, 9}

  lemma DigitsFlatten(g: Grid)
    requires CellsIn(g, Digits)
    ensures forall k :: 0 <= k < |Flatten(g)| ==> 0 <= Flatten(g)[k] <= 9
  {
    FlattenCellsIn(g, Digits);
  }

  /** Same shape, single-digit cells: equal tokens exactly when the boards are equal. */
  lemma TokenInjectiveOnDigits(a: Grid, b: Grid)
    requires |a| == |b| && forall i :: 0 <= i < |a| ==> |a[i]| == |b[i]|
    requires CellsIn(a, Digits) && CellsIn(b, Digits)
    ensures Token(a) == Token(b) <==> a == b
  {
    if Token(a) == Token(b) {
      var fa, fb := Flatten(a), Flatten(b);
      DigitsFlatten(a);
      DigitsFlatten(b);
      FlatTokenOfDigits(fa);
      FlatTokenOfDigits(fb);
      forall k | 0 <= k < |fa| ensures fa[k] == fb[k] {
        assert DigitChar(fa[k]) == DigitChar(fb[k]);
      }
      FlattenInjective(a, b);
    }
  }

  /** Two-digit tiles break injectivity: [[1, 12]] and [[11, 2]] share the token "112". */
  lemma TokenCollision()
    ensures [[1, 12]] != [[11, 2]]
    ensures Token([[1, 12]]) == Token([[11, 2]]) == "112"
  {
    assert Flatten([[1, 12]]) == [1, 12] by {
      assert [[1, 12]][..0] == [];
    }
    assert Flatten([[11, 2]]) == [11, 2] by {
      assert [[11, 2]][..0] == [];
    }
    assert [1, 12][..1] == [1] && [1][..0] == [];
    assert [11, 2][..1] == [11] && [11][..0] == [];
    assert NatStr(12) == "12";
    assert NatStr(11) == "11";
  }

  // ---------------------------------------------------------------- goal test

  /** Cell `i` of `s` is no smaller than the cell before it. */
  predicate InOrderAt(s: seq<int>, i: int)
  {
    1 <= i < |s| && s[i - 1] <= s[i]
  }

  /**
   * The goal predicate on the flattened board: the first cell is not the
   * empty cell and cells 0 .. n-2 are non-decreasing. The last cell is
   * never compared.
   */
  predicate IsGoalSeq(s: seq<int>)
  {
    |s| > 0 && s[0] != 0 && forall i :: 1 <= i < |s| - 1 ==> InOrderAt(s, i)
  }

  predicate IsGoal(g: Grid)
  {
    IsGoalSeq(Flatten(g))
  }

  method CheckGoal(puzzle: Grid) returns (solved: bool)
    requires Flatten(puzzle) != []
    ensures solved == IsGoal(puzzle)
  {
    var flat := Flatten(puzzle);
    if flat[0] == 0 {
      return false;
    }
    var i := 1;
    while i < |flat| - 1
      invariant 1 <= i && (|flat| >= 2 ==> i <= |flat| - 1)
      invariant forall k :: 1 <= k < i && k < |flat| - 1 ==> InOrderAt(flat, k)
    {
      if flat[i] < flat[i - 1] {
        assert !InOrderAt(flat, i);
        return false;
      }
      i := i + 1;
    }
    return true;
  }

  lemma GoalIgnoresLast(s: seq<int>, x: int, y: int)
    requires s != []
    ensures IsGoalSeq(s + [x]) == IsGoalSeq(s + [y])
  {
    forall i | 1 <= i < |s| ensures InOrderAt(s + [x], i) == InOrderAt(s + [y], i) {
      assert (s + [x])[i - 1] == s[i - 1] == (s + [y])[i - 1];
      assert (s + [x])[i] == s[i] == (s + [y])[i];
    }
  }

  /** A permutation of 0 .. |s| - 1. */
  predicate IsPermutation(s: seq<int>)
  {
    (forall i :: 0 <= i < |s| ==> 0 <= s[i] < |s|) &&
    (forall i, j :: 0 <= i < j < |s| ==> s[i] != s[j]) &&
    (forall v :: 0 <= v < |s| ==> v in s)
  }

  /** 1, 2, ..., n - 1 followed by 0. */
  function StandardOrder(n: nat): (s: seq<int>)
    requires n >= 1
    ensures |s| == n && s[n - 1] == 0
    ensures forall i :: 0 <= i < n - 1 ==> s[i] == i + 1
  {
    seq(n, i => if i == n - 1 then 0 else i + 1)
  }

  /** Adjacent non-decreasing plus distinct gives strictly increasing on 0 .. m. */
  lemma {:induction false} StrictlyIncreasing(s: seq<int>, m: nat, i: nat, j: nat)
    requires m < |s| && i < j <= m
    requires forall k :: 1 <= k <= m ==> s[k - 1] <= s[k]
    requires forall a, b :: 0 <= a < b < |s| ==> s[a] != s[b]
    ensures s[i] < s[j]
    decreases j - i
  {
    if i + 1 < j {
      StrictlyIncreasing(s, m, i + 1, j);
      assert s[i] != s[i + 1];
    } else {
      assert s[i] != s[j];
    }
  }

  lemma {:induction false} LowerBound(s: seq<int>, m: nat, i: nat)
    requires m < |s| && i <= m && s[0] >= 1
    requires forall a, b :: 0 <= a < b <= m ==> s[a] < s[b]
    ensures s[i] >= i + 1
  {
    if i > 0 {
      LowerBound(s, m, i - 1);
    }
  }

  lemma {:induction false} UpperBound(s: seq<int>, m: nat, i: nat, top: int)
    requires m < |s| && i <= m && s[m] <= top
    requires forall a, b :: 0 <= a < b <= m ==> s[a] < s[b]
    ensures s[i] <= top - (m - i)
    decreases m - i
  {
    if i < m {
      UpperBound(s, m, i + 1, top);
    }
  }

  /**
   * On a permutation of 0 .. n-1 (n >= 2) the goal test holds exactly for
   * the board 1, 2, ..., n-1, 0.
   */
  lemma {:induction false} GoalOnPermutation(s: seq<int>)
    requires |s| >= 2 && IsPermutation(s)
    ensures IsGoalSeq(s) <==> s == StandardOrder(|s|)
  {
    var n := |s|;
    if IsGoalSeq(s) {
      var m := n - 2;
      forall k | 1 <= k <= m ensures s[k - 1] <= s[k] {
        assert InOrderAt(s, k);
      }
      forall a, b | 0 <= a < b <= m ensures s[a] < s[b] {
        StrictlyIncreasing(s, m, a, b);
      }
      assert 0 in s;
      var p :| 0 <= p < n && s[p] == 0;
      if p < n - 1 {
        assert false;
      }
      forall i | 0 <= i <= m ensures s[i] == i + 1 {
        LowerBound(s, m, i);
        assert s[m] != s[n - 1];
        UpperBound(s, m, i, n - 1);
      }
      assert s == StandardOrder(n);
    }
  }

  /** On a square permutation board with every tile at home, the flattening is 1, 2, ..., n - 1, 0. */
  lemma HomeIsStandard(g: Grid)
    requires IsRect(g) && |g| == |g[0]| && IsPermutation(Flatten(g)) && AllHome(g)
    ensures Flatten(g) == StandardOrder(|g| * |g|)
  {
    var n, s := |g|, Flatten(g);
    FlattenSize(g, n);
    forall k | 0 <= k < n * n ensures s[k] == 0 || s[k] == k + 1 {
      RowMajorSplit(k, n);
      var i, j := k / n, k % n;
      FlattenAt(g, n, i, j);
      HomeCell(s[k], i, j, n);
    }
    var last := n * n - 1;
    assert s[last] == 0;
    forall k | 0 <= k < last ensures s[k] == k + 1 {
      assert s[k] != s[last];
    }
    assert forall k :: 0 <= k < |s| ==> s[k] == StandardOrder(n * n)[k];
  }

  /** A non-empty tile at home in cell (i, j) of an n-by-n board holds i * n + j + 1. */
  lemma HomeCell(v: int, i: int, j: int, n: int)
    requires n > 0 && 0 <= i < n && 0 <= j < n && v >= 0 && CellCost(v, i, j, n, n) == 0
    ensures v == 0 || v == i * n + j + 1
  {
    if v != 0 {
      assert v - 1 == ((v - 1) / n) * n + (v - 1) % n;
    }
  }

  /** On a square board flattening to 1, 2, ..., n - 1, 0, every tile is at home. */
  lemma StandardIsHome(g: Grid)
    requires IsRect(g) && |g| == |g[0]| && Flatten(g) == StandardOrder(|g| * |g|)
    ensures AllHome(g)
  {
    var n, s := |g|, Flatten(g);
    forall i, j | 0 <= i < n && 0 <= j < n ensures CellCost(g[i][j], i, j, n, n) == 0 {
      RowMajorBound(i, j, n);
      FlattenAt(g, n, i, j);
      if i * n + j != n * n - 1 {
        DivModOfRowMajor(i, j, n);
      }
    }
  }

  /**
   * On a square board of at least two rows holding 0 .. n - 1 once each,
   * the Manhattan sum is zero exactly when the goal test passes.
   */
  lemma ManhattanZeroOnPermutation(g: Grid)
    requires IsRect(g) && |g| == |g[0]| >= 2 && IsPermutation(Flatten(g))
    ensures ManhattanSum(g) == 0 <==> IsGoal(g)
  {
    var n := |g|;
    FlattenSize(g, n);
    MulLe(1, n, n);
    ManhattanZeroIff(g);
    GoalOnPermutation(Flatten(g));
    if ManhattanSum(g) == 0 {
      HomeIsStandard(g);
    }
    if IsGoal(g) {
      StandardIsHome(g);
    }
  }

  /** On a permutation board the misplaced count is zero exactly on the goal board. */
  lemma MisplacedZeroOnPermutation(s: seq<int>)
    requires |s| >= 2 && IsPermutation(s)
    ensures MisplacedUpTo(s, |s|) == 0 <==> IsGoalSeq(s)
  {
    var n := |s|;
    MisplacedZeroIff(s, n);
    GoalOnPermutation(s);
    if MisplacedUpTo(s, n) == 0 {
      assert 0 in s;
      var p :| 0 <= p < n && s[p] == 0;
      if p < n - 1 {
        assert false;
      }
      assert s == StandardOrder(n);
    }
  }
}

=== FILE: grids.dfy ===
/** Option type used for the results the solver may not produce. */
module Wrappers {
  datatype Option<+T> = None | Some(value: T)
}

/**
 * Boards as values: a grid of integer cells, 0 marking the empty cell.
 * The solver copies a board before every slide, so a board never changes
 * once built; the model treats it as an immutable value.
 */
module Grids {

  type Grid = seq<seq<int>>

  /** At least one row and one column, every row as wide as the first. */
  predicate IsRect(g: Grid) {
    |g| > 0 && |g[0]| > 0 && forall i :: 0 <= i < |g| ==> |g[i]| == |g[0]|
  }

  predicate HasShape(g: Grid, rows: nat, cols: nat) {
    |g| == rows && forall i :: 0 <= i < |g| ==> |g[i]| == cols
  }

  predicate InGrid(g: Grid, i: int, j: int) {
    0 <= i < |g| && 0 <= j < |g[i]|
  }

  /** Every cell of `g` holds one of `vals`. */
  predicate CellsIn(g: Grid, vals: set<int>) {
    forall i, j :: 0 <= i < |g| && 0 <= j < |g[i]| ==> g[i][j] in vals
  }

  /** The values that occur in `g`. */
  function CellSet(g: Grid): (vals: set<int>)
    ensures CellsIn(g, vals)
    ensures forall v :: v in vals ==> exists i, j :: InGrid(g, i, j) && g[i][j] == v
  {
    set i, j | 0 <= i < |g| && 0 <= j < |g[i]| :: g[i][j]
  }

  /** Row-major flattening of a grid. */
  function Flatten(g: Grid): seq<int>
  {
    if g == [] then [] else Flatten(g[..|g| - 1]) + g[|g| - 1]
  }

  lemma FlattenSnoc(g: Grid, i: nat)
    requires i < |g|
    ensures Flatten(g[..i + 1]) == Flatten(g[..i]) + g[i]
  {
    assert g[..i + 1][..i] == g[..i];
  }

  lemma {:induction false} FlattenNonEmpty(g: Grid)
    requires IsRect(g)
    ensures |Flatten(g)| >= |g[|g| - 1]| > 0
  {
  }

  /** Every entry of the flattening is a cell of the grid. */
  lemma {:induction false} FlattenCellsIn(g: Grid, vals: set<int>)
    requires CellsIn(g, vals)
    ensures forall k :: 0 <= k < |Flatten(g)| ==> Flatten(g)[k] in vals
  {
    if g != [] {
      var init := g[..|g| - 1];
      assert CellsIn(init, vals) by {
        forall i, j | 0 <= i < |init| && 0 <= j < |init[i]| ensures init[i][j] in vals {
          assert init[i] == g[i];
        }
      }
      FlattenCellsIn(init, vals);
      var last := g[|g| - 1];
      forall k | 0 <= k < |Flatten(g)| ensures Flatten(g)[k] in vals {
        if k >= |Flatten(init)| {
          assert Flatten(g)[k] == g[|g| - 1][k - |Flatten(init)|];
        }
      }
    }
  }

  /** Two grids with rows of the same widths are equal when their flattenings are. */
  lemma {:induction false} FlattenInjective(a: Grid, b: Grid)
    requires |a| == |b| && forall i :: 0 <= i < |a| ==> |a[i]| == |b[i]|
    requires Flatten(a) == Flatten(b)
    ensures a == b
  {
    if a != [] {
      var n := |a|;
      FlattenLength(a[..n - 1], b[..n - 1]);
      var pa, pb := Flatten(a[..n - 1]), Flatten(b[..n - 1]);
      assert pa + a[n - 1] == pb + b[n - 1];
      assert pa == (pa + a[n - 1])[..|pa|];
      assert pb == (pb + b[n - 1])[..|pb|];
      assert a[n - 1] == (pa + a[n - 1])[|pa|..];
      assert b[n - 1] == (pb + b[n - 1])[|pb|..];
      FlattenInjective(a[..n - 1], b[..n - 1]);
      assert a == a[..n - 1] + [a[n - 1]];
      assert b == b[..n - 1] + [b[n - 1]];
    }
  }

  lemma {:induction false} FlattenLength(a: Grid, b: Grid)
    requires |a| == |b| && forall i :: 0 <= i < |a| ==> |a[i]| == |b[i]|
    ensures |Flatten(a)| == |Flatten(b)|
  {
    if a != [] {
      FlattenLength(a[..|a| - 1], b[..|b| - 1]);
    }
  }

  /**
   * Exchange of two cells, the copy-and-swap the successor generator
   * performs: the first cell receives the second's value and vice versa.
   */
  function Swap(g: Grid, r: int, c: int, r2: int, c2: int): (s: Grid)
    requires InGrid(g, r, c) && InGrid(g, r2, c2)
    ensures |s| == |g| && forall i :: 0 <= i < |g| ==> |s[i]| == |g[i]|
  {
    var moved, blank := g[r2][c2], g[r][c];
    var g1 := g[r := g[r][c := moved]];
    g1[r2 := g1[r2][c2 := blank]]
  }

  /** The two cells are exchanged and every other cell is unchanged. */
  lemma SwapAt(g: Grid, r: int, c: int, r2: int, c2: int)
    requires InGrid(g, r, c) && InGrid(g, r2, c2)
    ensures forall i, j :: InGrid(g, i, j) ==>
      Swap(g, r, c, r2, c2)[i][j] ==
        if i == r2 && j == c2 then g[r][c]
        else if i == r && j == c then g[r2][c2]
        else g[i][j]
  {
  }

  /** Every sequence of length `n` over `vals`: a finite set. */
  function AllSeqs<T>(n: nat, vals: set<T>): set<seq<T>>
  {
    if n == 0 then {[]}
    else set s, v | s in AllSeqs(n - 1, vals) && v in vals :: [v] + s
  }

  lemma {:induction false} InAllSeqs<T>(s: seq<T>, vals: set<T>)
    requires forall k :: 0 <= k < |s| ==> s[k] in vals
    ensures s in AllSeqs(|s|, vals)
  {
    if |s| > 0 {
      InAllSeqs(s[1..], vals);
      assert s == [s[0]] + s[1..];
    }
  }

  /** All grids of the given shape whose cells are drawn from `vals`. */
  function GridUniverse(rows: nat, cols: nat, vals: set<int>): set<Grid>
  {
    AllSeqs(rows, AllSeqs(cols, vals))
  }

  lemma {:induction false} InGridUniverse(g: Grid, rows: nat, cols: nat, vals: set<int>)
    requires HasShape(g, rows, cols) && CellsIn(g, vals)
    ensures g in GridUniverse(rows, cols, vals)
  {
    forall k | 0 <= k < |g| ensures g[k] in AllSeqs(cols, vals) {
      InAllSeqs(g[k], vals);
    }
    InAllSeqs(g, AllSeqs(cols, vals));
  }

  lemma SubsetCardinality<T>(a: set<T>, b: set<T>)
    requires a <= b
    ensures |a| <= |b|
  {
    assert b == a + (b - a);
  }
}

=== FILE: lineage.dfy ===
/**
 * What every node a solver queues satisfies, and the token bookkeeping
 * over the queued nodes: descent from the root by legal slides, the finite
 * set of tokens the root's boards can have, the tokens of a list of nodes
 * and their distinctness, a node's children being seen, and the order of
 * the queued nodes by moves.
 */
module Lineage {
  import opened Wrappers
  import opened Grids
  import opened Board
  import opened Nodes

  /** `n` is `root` or hangs below it through a chain of legal slides. */
  ghost predicate DescendsFrom(n: Node, root: Node)
    decreases n
  {
    n == root ||
    (n.parent.Of? && Valid(n.parent.node) && n in Successors(n.parent.node) &&
     DescendsFrom(n.parent.node, root))
  }

  /**
   * What every node a solver queues satisfies: a valid board of the root's
   * shape, over the root's cell values, in the root's mode, below the root.
   */
  ghost predicate Reached(n: Node, root: Node)
    requires Valid(root)
  {
    Valid(n) && HasShape(n.puzzle, |root.puzzle|, |root.puzzle[0]|) &&
    CellsIn(n.puzzle, CellSet(root.puzzle)) && n.h == root.h && Built(n) && DescendsFrom(n, root)
  }

  /** The priority is the one the constructor computes. */
  predicate Built(n: Node)
    requires Valid(n)
  {
    n.f == Cost(n.h, n.w, n.puzzle)
  }

  lemma RootReached(root: Node)
    requires Valid(root) && Built(root)
    ensures Reached(root, root)
  {
  }

  lemma ChildReached(root: Node, n: Node, m: Node)
    requires Valid(root) && Reached(n, root) && m in Successors(n)
    ensures Reached(m, root)
  {
    SuccessorFacts(n, m);
    SuccessorCells(n, m, CellSet(root.puzzle));
  }

  /** The cached position of every node below a root with the empty cell cached holds the empty cell. */
  lemma {:induction false} BlankKept(root: Node, n: Node)
    requires Valid(root) && root.puzzle[root.r][root.c] == 0 && DescendsFrom(n, root)
    ensures Valid(n) && n.puzzle[n.r][n.c] == 0
    decreases n
  {
    if n != root {
      var p := n.parent.node;
      BlankKept(root, p);
      SuccessorFacts(p, n);
      var d :| CanMove(p, d) && n == Slide(p, d);
      SlideMovesBlank(p, d);
    }
  }

  /** The tokens of every board of the root's shape over the root's values: a finite set. */
  ghost function Universe(root: Node): set<string>
    requires Valid(root)
  {
    set g | g in GridUniverse(|root.puzzle|, |root.puzzle[0]|, CellSet(root.puzzle)) :: Token(g)
  }

  lemma InUniverse(root: Node, n: Node)
    requires Valid(root) && Reached(n, root)
    ensures Token(n.puzzle) in Universe(root)
  {
    InGridUniverse(n.puzzle, |root.puzzle|, |root.puzzle[0]|, CellSet(root.puzzle));
  }

  /** The tokens of the boards of `ns`. */
  ghost function TokensOf(ns: seq<Node>): set<string>
  {
    set k | 0 <= k < |ns| :: Token(ns[k].puzzle)
  }

  lemma TokensOfAppend(a: seq<Node>, b: seq<Node>)
    ensures TokensOf(a + b) == TokensOf(a) + TokensOf(b)
  {
    var ab := a + b;
    forall t | t in TokensOf(a) ensures t in TokensOf(ab) {
      var k :| 0 <= k < |a| && Token(a[k].puzzle) == t;
      assert ab[k] == a[k];
    }
    forall t | t in TokensOf(b) ensures t in TokensOf(ab) {
      var k :| 0 <= k < |b| && Token(b[k].puzzle) == t;
      assert ab[|a| + k] == b[k];
    }
  }

  lemma TokensOfSingle(x: Node)
    ensures TokensOf([x]) == {Token(x.puzzle)}
  {
    assert [x][0] == x;
    assert Token([x][0].puzzle) in TokensOf([x]);
  }

  /** Tokens are as many as the boards when no two boards share one. */
  lemma {:induction false} TokensOfCard(ns: seq<Node>)
    requires DistinctTokens(ns)
    ensures |TokensOf(ns)| == |ns|
  {
    if ns != [] {
      var init := ns[..|ns| - 1];
      var x := ns[|ns| - 1];
      assert ns == init + [x];
      TokensOfAppend(init, [x]);
      TokensOfSingle(x);
      assert DistinctTokens(init) by {
        forall i, j | 0 <= i < j < |init| ensures Token(init[i].puzzle) != Token(init[j].puzzle) {
          assert init[i] == ns[i] && init[j] == ns[j];
        }
      }
      TokensOfCard(init);
      assert Token(x.puzzle) !in TokensOf(init);
    }
  }

  /** No two boards of `ns` share a token. */
  predicate DistinctTokens(ns: seq<Node>) {
    forall i, j :: 0 <= i < j < |ns| ==> Token(ns[i].puzzle) != Token(ns[j].puzzle)
  }

  /**
   * Keys without repeats stay without repeats when an element whose key is
   * new is put in front.
   */
  lemma KeysCons<T, K>(key: T -> K, x: T, rest: seq<T>)
    requires forall i, j :: 0 <= i < j < |rest| ==> key(rest[i]) != key(rest[j])
    requires forall k :: 0 <= k < |rest| ==> key(rest[k]) != key(x)
    ensures forall i, j :: 0 <= i < j < |[x] + rest| ==> key(([x] + rest)[i]) != key(([x] + rest)[j])
  {
    var u := [x] + rest;
    forall i, j | 0 <= i < j < |u| ensures key(u[i]) != key(u[j]) {
      if i == 0 {
        assert u[i] == x && u[j] == rest[j - 1];
      } else {
        assert u[i] == rest[i - 1] && u[j] == rest[j - 1];
      }
    }
  }

  /** A node whose token differs from those of a list without repeated tokens can head it. */
  lemma DistinctCons(x: Node, rest: seq<Node>)
    requires DistinctTokens(rest)
    requires forall k :: 0 <= k < |rest| ==> Token(rest[k].puzzle) != Token(x.puzzle)
    ensures DistinctTokens([x] + rest)
  {
    KeysCons((n: Node) => Token(n.puzzle), x, rest);
  }

  /** Every child of `n` has its token among `seen`. */
  predicate Explored(n: Node, seen: set<string>) {
    Valid(n) && var kids := Successors(n); forall i :: 0 <= i < |kids| ==> Token(kids[i].puzzle) in seen
  }

  /** A node explored against a set of tokens is explored against any larger set. */
  lemma ExploredMono(n: Node, small: set<string>, large: set<string>)
    requires Explored(n, small) && small <= large
    ensures Explored(n, large)
  {
  }

  /** Non-decreasing number of moves along `ns`. */
  predicate SortedByMoves(ns: seq<Node>) {
    forall i, j :: 0 <= i < j < |ns| ==> ns[i].w <= ns[j].w
  }

  // ------------------------------------------------------ queued nodes

  /** The root first, every queued node reached from it, no two tokens alike. */
  ghost predicate QueuedFrom(root: Node, pushed: seq<Node>)
    requires Valid(root)
  {
    |pushed| >= 1 && pushed[0] == root &&
    (forall k :: 0 <= k < |pushed| ==> Reached(pushed[k], root)) && DistinctTokens(pushed)
  }

  /**
   * The state both solvers keep: `pushed` lists every node ever queued,
   * the first being the root; all are reached from the root; `repeats`
   * holds exactly their tokens, no two alike, inside the finite universe.
   */
  ghost predicate Discovered(root: Node, pushed: seq<Node>, repeats: set<string>)
    requires Valid(root)
  {
    QueuedFrom(root, pushed) && repeats == TokensOf(pushed) && repeats <= Universe(root)
  }

  /** The first `n` queued nodes are expanded: none is a goal and all are explored. */
  ghost predicate ClosedUpTo(pushed: seq<Node>, n: int, seen: set<string>) {
    forall k :: 0 <= k < n && k < |pushed| ==> !IsGoal(pushed[k].puzzle) && Explored(pushed[k], seen)
  }

  /** None of the first `n` queued nodes is a goal. */
  ghost predicate NoGoalBefore(pushed: seq<Node>, n: int) {
    forall k :: 0 <= k < n && k < |pushed| ==> !IsGoal(pushed[k].puzzle)
  }

  lemma ClosedNoGoal(pushed: seq<Node>, n: int, seen: set<string>)
    requires ClosedUpTo(pushed, n, seen)
    ensures NoGoalBefore(pushed, n)
  {
  }

  /**
   * The FIFO layering: from the front of the queue on, no queued node has
   * more than one move beyond the front.
   */
  predicate Layered(pushed: seq<Node>, e: int) {
    0 <= e < |pushed| ==> forall j :: e <= j < |pushed| ==> pushed[j].w <= pushed[e].w + 1
  }

  /** No queued node with fewer than `w` moves is a goal. */
  ghost predicate NoShallowerGoal(pushed: seq<Node>, w: int) {
    forall k :: 0 <= k < |pushed| && pushed[k].w < w ==> !IsGoal(pushed[k].puzzle)
  }

  /** The tokens of the queued nodes are closed under slides. */
  ghost predicate AllExplored(pushed: seq<Node>) {
    forall k :: 0 <= k < |pushed| ==> Explored(pushed[k], TokensOf(pushed))
  }
}

=== FILE: nodes.dfy ===
/**
 * Search nodes and successor generation. A node is built once and never
 * changed, so it is a datatype; its parent link is either the root marker
 * `Init` or the parent node itself.
 */
module Nodes {
  import opened Wrappers
  import opened Grids
  import opened Board

  /** The heuristic selector: 0 none, 1 misplaced tiles, 2 Manhattan distance. */
  datatype Heuristic = NoHeuristic | MisplacedTiles | ManhattanDistance

  datatype Parent = Init | Of(node: Node)

  /**
   * A board with the cached empty-cell position (r, c), the number of moves
   * w from the root, the heuristic mode h, the priority f (absent when no
   * heuristic is selected) and the parent link.
   */
  datatype Node = Node(puzzle: Grid, r: int, c: int, w: int, h: Heuristic, f: Option<int>, parent: Parent)

  /** The priority a node receives at construction: w plus the selected heuristic. */
  function Cost(h: Heuristic, w: int, g: Grid): (f: Option<int>)
    requires h == ManhattanDistance ==> IsRect(g)
    ensures f.None? <==> h == NoHeuristic
  {
    match h
    case NoHeuristic => None
    case MisplacedTiles => Some(w + MisplacedCount(g))
    case ManhattanDistance => Some(w + ManhattanSum(g))
  }

  /**
   * Both heuristics are non-negative, so f is never below w; with misplaced
   * tiles it exceeds w by at most the number of cells minus one.
   */
  lemma CostBounds(h: Heuristic, w: int, g: Grid)
    requires h == ManhattanDistance ==> IsRect(g)
    ensures Cost(h, w, g).Some? ==> Cost(h, w, g).value >= w
    ensures h == MisplacedTiles && Flatten(g) != [] ==> Cost(h, w, g).value <= w + |Flatten(g)| - 1
  {
  }

  /** The node the constructor builds from its arguments. */
  function Make(puzzle: Grid, r: int, c: int, w: int, h: Heuristic, parent: Parent): Node
    requires h == ManhattanDistance ==> IsRect(puzzle)
  {
    Node(puzzle, r, c, w, h, Cost(h, w, puzzle), parent)
  }

  /** The constructor: stores its arguments and computes f for modes 1 and 2. */
  method NewNode(puzzle: Grid, r: int, c: int, w: int, h: Heuristic, parent: Parent) returns (n: Node)
    requires h == ManhattanDistance ==> IsRect(puzzle)
    ensures n == Make(puzzle, r, c, w, h, parent)
    ensures n.f.None? <==> h == NoHeuristic
  {
    var f := None;
    if h == MisplacedTiles {
      var m := Misplaced(puzzle);
      f := Some(w + m);
    }
    if h == ManhattanDistance {
      var m := Manhattan(puzzle);
      f := Some(w + m);
    }
    n := Node(puzzle, r, c, w, h, f, parent);
  }

  /** A rectangular board whose cached position lies inside it. */
  predicate Valid(n: Node) {
    IsRect(n.puzzle) && 0 <= n.r < |n.puzzle| && 0 <= n.c < |n.puzzle[0]|
  }

  /** The cached position marks the only empty cell of the board. */
  predicate BlankAt(n: Node)
    requires Valid(n)
  {
    forall i, j :: 0 <= i < |n.puzzle| && 0 <= j < |n.puzzle[i]| ==>
      (n.puzzle[i][j] == 0 <==> i == n.r && j == n.c)
  }

  // ---------------------------------------------------------------- moves

  datatype Direction = Left | Right | Up | Down

  /** Position of a direction in the generation order left, right, up, down. */
  function Rank(d: Direction): nat {
    match d
    case Left => 0
    case Right => 1
    case Up => 2
    case Down => 3
  }

  /** The neighbour the empty cell moves to. */
  function Target(n: Node, d: Direction): (int, int) {
    match d
    case Left => (n.r, n.c - 1)
    case Right => (n.r, n.c + 1)
    case Up => (n.r - 1, n.c)
    case Down => (n.r + 1, n.c)
  }

  /** The guards of the four slides. */
  predicate CanMove(n: Node, d: Direction)
    requires Valid(n)
  {
    match d
    case Left => n.c > 0
    case Right => n.c < |n.puzzle[0]| - 1
    case Up => n.r > 0
    case Down => n.r < |n.puzzle| - 1
  }

  /** A slide is possible exactly when the neighbour lies on the board. */
  lemma CanMoveIffInBounds(n: Node, d: Direction)
    requires Valid(n)
    ensures CanMove(n, d) <==> InGrid(n.puzzle, Target(n, d).0, Target(n, d).1)
  {
  }

  /** Direction d, if its slide is possible. */
  function DirOpt(n: Node, d: Direction): seq<Direction>
    requires Valid(n)
  {
    if CanMove(n, d) then [d] else []
  }

  /** The directions that can be taken, in generation order. */
  function Moves(n: Node): seq<Direction>
    requires Valid(n)
  {
    DirOpt(n, Left) + DirOpt(n, Right) + DirOpt(n, Up) + DirOpt(n, Down)
  }

  /** At most four directions, exactly the possible ones. */
  lemma MovesPossible(n: Node)
    requires Valid(n)
    ensures |Moves(n)| <= 4
    ensures forall d :: d in Moves(n) <==> CanMove(n, d)
  {
    var a, b, c, e := DirOpt(n, Left), DirOpt(n, Right), DirOpt(n, Up), DirOpt(n, Down);
    forall d ensures d in Moves(n) <==> CanMove(n, d) {
      assert d in Moves(n) <==> d in a || d in b || d in c || d in e;
    }
  }

  /** Each direction at most once, in the order left, right, up, down. */
  lemma MovesInOrder(n: Node)
    requires Valid(n)
    ensures RankSorted(Moves(n))
  {
    var a, b, c, e := DirOpt(n, Left), DirOpt(n, Right), DirOpt(n, Up), DirOpt(n, Down);
    SortedAppend(a, b);
    SortedAppend(a + b, c);
    SortedAppend(a + b + c, e);
  }

  /** Strictly increasing in generation order. */
  predicate RankSorted(ds: seq<Direction>) {
    forall i, j :: 0 <= i < j < |ds| ==> Rank(ds[i]) < Rank(ds[j])
  }

  lemma SortedAppend(a: seq<Direction>, b: seq<Direction>)
    requires RankSorted(a) && RankSorted(b)
    requires forall x, y :: x in a && y in b ==> Rank(x) < Rank(y)
    ensures RankSorted(a + b)
  {
    forall i, j | 0 <= i < j < |a + b| ensures Rank((a + b)[i]) < Rank((a + b)[j]) {
      if i < |a| && j >= |a| {
        assert (a + b)[i] in a && (a + b)[j] in b;
      }
    }
  }

  /**
   * The child produced by sliding the empty cell in direction d: the board
   * with (r, c) and the neighbour exchanged, the neighbour as the new
   * position, one more move, the same mode and this node as parent.
   */
  function Slide(n: Node, d: Direction): (m: Node)
    requires Valid(n) && CanMove(n, d)
    ensures Valid(m)
  {
    var t := Target(n, d);
    Make(Swap(n.puzzle, n.r, n.c, t.0, t.1), t.0, t.1, n.w + 1, n.h, Of(n))
  }

  /**
   * The child of a slide: the empty-cell position moves to the neighbour,
   * at distance 1; the board keeps its shape and is the parent's board with
   * the two cells exchanged; one more move, the same mode, the parent as
   * parent, and f as the constructor computes it.
   */
  lemma SlideFacts(n: Node, d: Direction)
    requires Valid(n) && CanMove(n, d)
    ensures var m := Slide(n, d);
      && Valid(m) && (m.r, m.c) == Target(n, d)
      && Abs(m.r - n.r) + Abs(m.c - n.c) == 1
      && HasShape(m.puzzle, |n.puzzle|, |n.puzzle[0]|)
      && m.puzzle == Swap(n.puzzle, n.r, n.c, m.r, m.c)
      && m.w == n.w + 1 && m.h == n.h && m.parent == Of(n)
      && m.f == Cost(m.h, m.w, m.puzzle)
  {
  }

  /** The child of a slide in direction d, if that slide is possible. */
  function Opt(n: Node, d: Direction): (kids: seq<Node>)
    requires Valid(n)
    ensures |kids| <= 1
  {
    if CanMove(n, d) then [Slide(n, d)] else []
  }

  /** The children of a node, one per possible slide, in generation order. */
  function Successors(n: Node): (kids: seq<Node>)
    requires Valid(n)
  {
    Opt(n, Left) + Opt(n, Right) + Opt(n, Up) + Opt(n, Down)
  }

  /** `kids` are the slides in directions `ds`, one for one and in the same order. */
  predicate SlidesOf(n: Node, kids: seq<Node>, ds: seq<Direction>) {
    Valid(n) && |kids| == |ds| &&
    forall k :: 0 <= k < |ds| ==> CanMove(n, ds[k]) && kids[k] == Slide(n, ds[k])
  }

  lemma SlidesAppend(n: Node, kids1: seq<Node>, ds1: seq<Direction>, kids2: seq<Node>, ds2: seq<Direction>)
    requires SlidesOf(n, kids1, ds1) && SlidesOf(n, kids2, ds2)
    ensures SlidesOf(n, kids1 + kids2, ds1 + ds2)
  {
    forall k | 0 <= k < |ds1 + ds2|
      ensures CanMove(n, (ds1 + ds2)[k]) && (kids1 + kids2)[k] == Slide(n, (ds1 + ds2)[k])
    {
      if k >= |ds1| {
        assert (ds1 + ds2)[k] == ds2[k - |ds1|];
      }
    }
  }

  /**
   * At most four children, the k-th made by the k-th possible direction in
   * the order left, right, up, down.
   */
  lemma SuccessorsInOrder(n: Node)
    requires Valid(n)
    ensures |Successors(n)| <= 4
    ensures SlidesOf(n, Successors(n), Moves(n))
  {
    var a, b, c, e := Opt(n, Left), Opt(n, Right), Opt(n, Up), Opt(n, Down);
    var da, db, dc, de := DirOpt(n, Left), DirOpt(n, Right), DirOpt(n, Up), DirOpt(n, Down);
    assert SlidesOf(n, a, da) && SlidesOf(n, b, db) && SlidesOf(n, c, dc) && SlidesOf(n, e, de);
    SlidesAppend(n, a, da, b, db);
    SlidesAppend(n, a + b, da + db, c, dc);
    SlidesAppend(n, a + b + c, da + db + dc, e, de);
  }

  /** A child exists for every possible slide, and every child is one. */
  lemma SuccessorsExactly(n: Node, m: Node)
    requires Valid(n)
    ensures m in Successors(n) <==> exists d :: CanMove(n, d) && m == Slide(n, d)
  {
    if m in Successors(n) {
      SuccessorFacts(n, m);
    }
    if exists d :: CanMove(n, d) && m == Slide(n, d) {
      var d :| CanMove(n, d) && m == Slide(n, d);
      assert m in Opt(n, d);
      match d
      case Left =>
      case Right =>
      case Up =>
      case Down =>
    }
  }

  /**
   * One block of the successor generator: copy the board, exchange the empty
   * cell with its neighbour in direction d and build the child node.
   */
  method SlideChild(n: Node, d: Direction) returns (child: Node)
    requires Valid(n) && CanMove(n, d)
    ensures Opt(n, d) == [child]
  {
    var t := Target(n, d);
    var newPuzzle := Swap(n.puzzle, n.r, n.c, t.0, t.1);
    child := NewNode(newPuzzle, t.0, t.1, n.w + 1, n.h, Of(n));
  }

  /**
   * The successor generator: for each slide whose guard holds, in the order
   * left, right, up, down, a new node one move deeper with this node as parent.
   */
  method MakeMoves(n: Node) returns (newStates: seq<Node>)
    requires Valid(n)
    ensures newStates == Successors(n)
  {
    ghost var left, right, up := [], [], [];
    newStates := [];
    if n.c > 0 {
      var child := SlideChild(n, Left);
      newStates := newStates + [child];
    }
    left := newStates;
    if n.c < |n.puzzle[0]| - 1 {
      var child := SlideChild(n, Right);
      newStates := newStates + [child];
    }
    right := newStates;
    if n.r > 0 {
      var child := SlideChild(n, Up);
      newStates := newStates + [child];
    }
    up := newStates;
    if n.r < |n.puzzle| - 1 {
      var child := SlideChild(n, Down);
      newStates := newStates + [child];
    }
    assert left == Opt(n, Left);
    assert right == left + Opt(n, Right);
    assert up == right + Opt(n, Up);
    assert newStates == up + Opt(n, Down);
  }

  /**
   * What every child satisfies: it comes from one possible slide, keeps the
   * shape of its parent, has one more move, the same mode, the parent as
   * parent and the priority its constructor computes.
   */
  lemma SuccessorFacts(n: Node, m: Node)
    requires Valid(n) && m in Successors(n)
    ensures exists d :: CanMove(n, d) && m == Slide(n, d)
    ensures Valid(m) && HasShape(m.puzzle, |n.puzzle|, |n.puzzle[0]|)
    ensures m.w == n.w + 1 && m.h == n.h && m.parent == Of(n)
    ensures m.f == Cost(m.h, m.w, m.puzzle)
  {
    assert m in Opt(n, Left) || m in Opt(n, Right) || m in Opt(n, Up) || m in Opt(n, Down);
  }

  /** A slide only moves cells, so the child's values are drawn from the parent's. */
  lemma SlideCells(n: Node, d: Direction, vals: set<int>)
    requires Valid(n) && CanMove(n, d) && CellsIn(n.puzzle, vals)
    ensures CellsIn(Slide(n, d).puzzle, vals)
  {
    var m, t := Slide(n, d), Target(n, d);
    SwapAt(n.puzzle, n.r, n.c, t.0, t.1);
    forall i, j | 0 <= i < |m.puzzle| && 0 <= j < |m.puzzle[i]| ensures m.puzzle[i][j] in vals {
      assert InGrid(n.puzzle, i, j);
    }
  }

  /** A child's cells are drawn from the same values as its parent's. */
  lemma SuccessorCells(n: Node, m: Node, vals: set<int>)
    requires Valid(n) && m in Successors(n) && CellsIn(n.puzzle, vals)
    ensures CellsIn(m.puzzle, vals)
  {
    SuccessorFacts(n, m);
    var d :| CanMove(n, d) && m == Slide(n, d);
    SlideCells(n, d, vals);
  }

  /** If (r, c) holds the empty cell, the child's (r, c) holds it too. */
  lemma SlideMovesBlank(n: Node, d: Direction)
    requires Valid(n) && CanMove(n, d) && n.puzzle[n.r][n.c] == 0
    ensures Slide(n, d).puzzle[Slide(n, d).r][Slide(n, d).c] == 0
  {
    var t := Target(n, d);
    SwapAt(n.puzzle, n.r, n.c, t.0, t.1);
  }

  /**
   * With the empty cell unique and cached, every child is a different board
   * whose cached position again marks the only empty cell.
   */
  lemma SlideKeepsBlankUnique(n: Node, d: Direction)
    requires Valid(n) && BlankAt(n) && CanMove(n, d)
    ensures BlankAt(Slide(n, d))
    ensures Slide(n, d).puzzle != n.puzzle
  {
    var m := Slide(n, d);
    SwapAt(n.puzzle, n.r, n.c, m.r, m.c);
    assert m.puzzle[n.r][n.c] != n.puzzle[n.r][n.c];
  }
}

=== FILE: paths.dfy ===
/**
 * The driver: the start board becomes the root node (move count 0, parent
 * the root marker), the mode picks the solver, and the parent links of the
 * goal are walked back to the root to list the boards of the solution.
 */
module Paths {
  import opened Wrappers
  import opened Grids
  import opened Board
  import opened Nodes
  import opened Lineage
  import opened Search

  /**
   * The boards met when following the parent links from `n`, `n`'s own
   * first, stopping at the node whose parent is the root marker (that
   * node's board is not included).
   */
  function Trail(n: Node): seq<Grid>
    decreases n
  {
    match n.parent
    case Init => []
    case Of(p) => [n.puzzle] + Trail(p)
  }

  function Reversed<T>(s: seq<T>): (r: seq<T>)
    ensures |r| == |s|
  {
    if s == [] then [] else Reversed(s[1..]) + [s[0]]
  }

  lemma ReversedCons<T>(x: T, s: seq<T>)
    ensures Reversed([x] + s) == Reversed(s) + [x]
  {
    assert ([x] + s)[1..] == s;
  }

  /**
   * `b` is `a` with the empty cell and a cell sharing a side with it
   * exchanged: one slide of a tile into the empty cell.
   */
  ghost predicate SlideStep(a: Grid, b: Grid) {
    exists r, c, r2, c2 :: InGrid(a, r, c) && InGrid(a, r2, c2) && a[r][c] == 0 &&
      Abs(r - r2) + Abs(c - c2) == 1 && b == Swap(a, r, c, r2, c2)
  }

  /** Every board of `boards` follows from the one before by one slide. */
  ghost predicate Slides(boards: seq<Grid>) {
    forall k :: 0 <= k < |boards| - 1 ==> SlideStep(boards[k], boards[k + 1])
  }

  /** A possible slide exchanges the empty cell with a neighbour. */
  lemma SlideIsStep(p: Node, d: Direction)
    requires Valid(p) && CanMove(p, d) && p.puzzle[p.r][p.c] == 0
    ensures SlideStep(p.puzzle, Slide(p, d).puzzle)
  {
    var n := Slide(p, d);
    SlideFacts(p, d);
    assert InGrid(p.puzzle, p.r, p.c) && InGrid(p.puzzle, n.r, n.c);
    assert n.puzzle == Swap(p.puzzle, p.r, p.c, n.r, n.c);
  }

  /** A child's board follows from its parent's by one slide when the parent caches its empty cell. */
  lemma ChildSlides(p: Node, n: Node)
    requires Valid(p) && p.puzzle[p.r][p.c] == 0 && n in Successors(p)
    ensures SlideStep(p.puzzle, n.puzzle) && n.w == p.w + 1 && n.parent == Of(p)
  {
    SuccessorFacts(p, n);
    var d :| CanMove(p, d) && n == Slide(p, d);
    SlideIsStep(p, d);
  }

  /**
   * For a node below a root whose parent is the root marker and whose
   * cached position holds the empty cell, the walk yields one board per
   * move, and the start board followed by the walk read backwards is a
   * chain of slides from the root's board to the node's.
   */
  lemma {:induction false} TrailIsRoute(root: Node, n: Node)
    requires Valid(root) && root.puzzle[root.r][root.c] == 0 && root.parent == Init && DescendsFrom(n, root)
    ensures |Trail(n)| == n.w - root.w
    ensures var route := [root.puzzle] + Reversed(Trail(n));
      route[|route| - 1] == n.puzzle && Slides(route)
    decreases n
  {
    if n != root {
      var p := n.parent.node;
      TrailIsRoute(root, p);
      BlankKept(root, p);
      ChildSlides(p, n);
      ReversedCons(n.puzzle, Trail(p));
      var before := [root.puzzle] + Reversed(Trail(p));
      var route := [root.puzzle] + Reversed(Trail(n));
      assert route == before + [n.puzzle];
      forall k | 0 <= k < |route| - 1 ensures SlideStep(route[k], route[k + 1]) {
        if k < |before| - 1 {
          assert route[k] == before[k] && route[k + 1] == before[k + 1];
        } else {
          assert route[k] == p.puzzle && route[k + 1] == n.puzzle;
        }
      }
    }
  }

  /**
   * The walk over the parent links: collects the boards from the goal back
   * and counts them as the depth.
   */
  method WalkBack(goal: Node) returns (solution: seq<Grid>, depth: int)
    ensures solution == Trail(goal) && depth == |solution|
  {
    solution, depth := [], 0;
    var node := goal;
    while node.parent != Init
      invariant solution + Trail(node) == Trail(goal)
      invariant depth == |solution|
      decreases node
    {
      assert Trail(node) == [node.puzzle] + Trail(node.parent.node);
      solution := solution + [node.puzzle];
      node := node.parent.node;
      depth := depth + 1;
    }
  }

  /**
   * What a run of the program ends with: the boards it prints from the
   * start to the goal with the depth and the solver's counters; a start
   * board without an empty cell; a uniform-cost search that ran dry (the
   * program then fails on the missing node); an A* run that waits forever.
   */
  datatype Ending =
    | Solution(boards: seq<Grid>, depth: int, maxQ: int, expanded: int)
    | NoEmptyCell
    | NoGoal
    | Waits

  /**
   * The program on a start board and a mode: uniform-cost search for mode
   * 0, A* otherwise, then the walk back from the goal.
   */
  method Solve(puzzle: Grid, h: Heuristic) returns (e: Ending)
    requires IsRect(puzzle)
    ensures e.NoEmptyCell? <==> forall i, j :: InGrid(puzzle, i, j) ==> puzzle[i][j] != 0
    ensures e.NoGoal? ==> h == NoHeuristic
    ensures e.Waits? ==> h != NoHeuristic
    ensures e.Solution? ==>
      && 0 <= e.depth && |e.boards| == e.depth + 1 && e.boards[0] == puzzle
      && IsGoal(e.boards[e.depth]) && Slides(e.boards)
      && 1 <= e.expanded && 1 <= e.maxQ
  {
    var pos := FindZeroIndex(puzzle);
    if pos.None? {
      return NoEmptyCell;
    }
    var (r, c) := pos.value;
    var root := NewNode(puzzle, r, c, 0, h, Init);
    var result, maxQ, expanded;
    if h == NoHeuristic {
      ghost var pushed;
      result, maxQ, expanded, pushed := UniformCost(root);
      UniformEnds(root, result, maxQ, expanded, pushed);
    } else {
      ghost var pushed, left;
      result, maxQ, expanded, pushed, left := AStar(root);
      AStarEnds(root, result, maxQ, expanded, pushed, left);
    }
    match result {
      case NoSolution =>
        e := NoGoal;
      case Blocked =>
        e := Waits;
      case Solved(goal) =>
        TrailIsRoute(root, goal);
        var solution, depth := WalkBack(goal);
        e := Solution([puzzle] + Reversed(solution), depth, maxQ, expanded);
    }
  }
}

=== FILE: reach.dfy ===
/**
 * What an exhausted search says about the boards reachable from the start.
 * On a board whose cells are single digits with one empty cell, which is
 * where the token identifies the board, a search that ends without a goal
 * has visited every board that legal moves reach, so no goal is reachable.
 */
module Reach {
  import opened Wrappers
  import opened Grids
  import opened Board
  import opened Nodes
  import opened Lineage
  import opened Search

  /** The node after playing the moves `ds` from `n`, or `None` at the first move off the board. */
  function Play(n: Node, ds: seq<Direction>): (m: Option<Node>)
    requires Valid(n)
    ensures m.Some? ==> Valid(m.value)
    decreases |ds|
  {
    if ds == [] then Some(n)
    else if CanMove(n, ds[0]) then Play(Slide(n, ds[0]), ds[1..])
    else None
  }

  /**
   * The queue of an exhausted search: the root first, every node reached
   * from it, none a goal, each with the tokens of all its children among
   * the tokens of the queue.
   */
  ghost predicate Exhausted(root: Node, pushed: seq<Node>)
    requires Valid(root)
  {
    |pushed| >= 1 && pushed[0] == root &&
    forall k :: 0 <= k < |pushed| ==>
      Reached(pushed[k], root) && !IsGoal(pushed[k].puzzle) && Explored(pushed[k], TokensOf(pushed))
  }

  /** A start board the token identifies: single-digit cells, one empty cell, at the cached position. */
  predicate Identified(root: Node) {
    Valid(root) && BlankAt(root) && CellsIn(root.puzzle, Digits)
  }

  /** A board of the root's kind whose token is among the tokens of the queue. */
  ghost predicate Covered(root: Node, pushed: seq<Node>, n: Node)
    requires Valid(root)
  {
    Valid(n) && BlankAt(n) && HasShape(n.puzzle, |root.puzzle|, |root.puzzle[0]|) &&
    CellsIn(n.puzzle, CellSet(root.puzzle)) && Token(n.puzzle) in TokensOf(pushed)
  }

  lemma CellsWiden(g: Grid, small: set<int>, large: set<int>)
    requires CellsIn(g, small) && small <= large
    ensures CellsIn(g, large)
  {
  }

  /** Boards of the root's kind with the same token are the same board. */
  lemma SameBoard(root: Node, q: Node, n: Node)
    requires Identified(root) && Reached(q, root)
    requires HasShape(n.puzzle, |root.puzzle|, |root.puzzle[0]|) && CellsIn(n.puzzle, CellSet(root.puzzle))
    requires Token(q.puzzle) == Token(n.puzzle)
    ensures q.puzzle == n.puzzle
  {
    var vals := CellSet(root.puzzle);
    CellsWiden(q.puzzle, vals, Digits);
    CellsWiden(n.puzzle, vals, Digits);
    TokenInjectiveOnDigits(q.puzzle, n.puzzle);
  }

  /** On the same board with one empty cell, the cached positions agree. */
  lemma SamePosition(root: Node, q: Node, n: Node)
    requires Identified(root) && Reached(q, root) && Valid(n) && BlankAt(n) && q.puzzle == n.puzzle
    ensures q.r == n.r && q.c == n.c
  {
    assert root.puzzle[root.r][root.c] == 0;
    BlankKept(root, q);
  }

  /**
   * A covered board is, cell for cell and in its empty-cell position, a
   * queued node's board.
   */
  lemma CoveredIsQueued(root: Node, pushed: seq<Node>, n: Node) returns (k: int)
    requires Identified(root) && Exhausted(root, pushed) && Covered(root, pushed, n)
    ensures 0 <= k < |pushed| && pushed[k].puzzle == n.puzzle && pushed[k].r == n.r && pushed[k].c == n.c
  {
    k :| 0 <= k < |pushed| && Token(pushed[k].puzzle) == Token(n.puzzle);
    assert Reached(pushed[k], root);
    SameBoard(root, pushed[k], n);
    SamePosition(root, pushed[k], n);
  }

  /** A slide from a board whose token is queued leads to a board whose token is queued. */
  lemma ChildTokenQueued(root: Node, pushed: seq<Node>, n: Node, d: Direction)
    requires Identified(root) && Exhausted(root, pushed) && Covered(root, pushed, n) && CanMove(n, d)
    ensures Token(Slide(n, d).puzzle) in TokensOf(pushed)
  {
    var k := CoveredIsQueued(root, pushed, n);
    var q := pushed[k];
    assert Explored(q, TokensOf(pushed));
    SlideSameBoard(q, n, d);
    SuccessorsExactly(q, Slide(q, d));
  }

  /** A slide's board depends only on the board and the cached position. */
  lemma SlideSameBoard(q: Node, n: Node, d: Direction)
    requires Valid(q) && Valid(n) && q.puzzle == n.puzzle && q.r == n.r && q.c == n.c && CanMove(n, d)
    ensures CanMove(q, d) && Slide(q, d).puzzle == Slide(n, d).puzzle
  {
    SlideFacts(n, d);
    SlideFacts(q, d);
  }

  /** A slide keeps the board's shape, its cell values and the single empty cell at the cached position. */
  lemma ChildOfKind(root: Node, n: Node, d: Direction)
    requires Valid(root) && Valid(n) && BlankAt(n) && CanMove(n, d)
    requires HasShape(n.puzzle, |root.puzzle|, |root.puzzle[0]|) && CellsIn(n.puzzle, CellSet(root.puzzle))
    ensures var m := Slide(n, d);
      BlankAt(m) && HasShape(m.puzzle, |root.puzzle|, |root.puzzle[0]|) && CellsIn(m.puzzle, CellSet(root.puzzle))
  {
    var m := Slide(n, d);
    SuccessorsExactly(n, m);
    SuccessorFacts(n, m);
    SuccessorCells(n, m, CellSet(root.puzzle));
    SlideKeepsBlankUnique(n, d);
  }

  /** A legal move from a covered board leads to a covered board. */
  lemma CoveredStep(root: Node, pushed: seq<Node>, n: Node, d: Direction)
    requires Identified(root) && Exhausted(root, pushed) && Covered(root, pushed, n) && CanMove(n, d)
    ensures Covered(root, pushed, Slide(n, d))
  {
    ChildTokenQueued(root, pushed, n, d);
    ChildOfKind(root, n, d);
  }

  /** A covered board is not a goal, and neither is any board legal moves reach from it. */
  lemma {:induction false} CoveredPlay(root: Node, pushed: seq<Node>, n: Node, ds: seq<Direction>)
    requires Identified(root) && Exhausted(root, pushed) && Covered(root, pushed, n)
    ensures Play(n, ds).Some? ==> !IsGoal(Play(n, ds).value.puzzle)
    decreases |ds|
  {
    if ds == [] {
      var k := CoveredIsQueued(root, pushed, n);
    } else if CanMove(n, ds[0]) {
      CoveredStep(root, pushed, n, ds[0]);
      CoveredPlay(root, pushed, Slide(n, ds[0]), ds[1..]);
    }
  }

  /** No goal is reachable by legal moves from the root of an exhausted search. */
  lemma ExhaustedUnreachable(root: Node, pushed: seq<Node>, ds: seq<Direction>)
    requires Identified(root) && Exhausted(root, pushed)
    ensures Play(root, ds).Some? ==> !IsGoal(Play(root, ds).value.puzzle)
  {
    assert Reached(pushed[0], root);
    assert Token(root.puzzle) in TokensOf(pushed);
    CoveredPlay(root, pushed, root, ds);
  }

  /** A uniform-cost run that found no goal leaves an exhausted queue. */
  lemma UniformExhausted(root: Node, maxQ: int, expanded: int, pushed: seq<Node>)
    requires Valid(root) && UniformPromise(root, NoSolution, maxQ, expanded, pushed)
    ensures Exhausted(root, pushed)
  {
  }

  /** Uniform-cost search reports no solution only when no goal is reachable from the start. */
  lemma UniformNoSolution(root: Node, maxQ: int, expanded: int, pushed: seq<Node>, ds: seq<Direction>)
    requires Identified(root) && UniformPromise(root, NoSolution, maxQ, expanded, pushed)
    ensures Play(root, ds).Some? ==> !IsGoal(Play(root, ds).value.puzzle)
  {
    UniformExhausted(root, maxQ, expanded, pushed);
    ExhaustedUnreachable(root, pushed, ds);
  }

  /** A* waits on an empty queue only when no goal is reachable from the start. */
  lemma AStarBlockedUnreachable(root: Node, maxQ: int, expanded: int, pushed: seq<Node>, left: multiset<Item>, ds: seq<Direction>)
    requires Identified(root) && AStarPromise(root, Blocked, maxQ, expanded, pushed, left)
    ensures Play(root, ds).Some? ==> !IsGoal(Play(root, ds).value.puzzle)
  {
    ExhaustedUnreachable(root, pushed, ds);
  }
}

=== FILE: search.dfy ===
/**
 * The two solvers: uniform-cost search over a FIFO queue and A* over a
 * priority queue ordered by f. Both remember the token of every board they
 * have queued and never queue a board whose token they have seen.
 */
module Search {
  import opened Wrappers
  import opened Grids
  import opened Board
  import opened Nodes
  import opened Lineage

  /**
   * What a solver returns: the goal node, `None` once the queue runs dry,
   * or, for A*, a wait on an empty queue that never ends.
   */
  datatype Outcome = Solved(goal: Node) | NoSolution | Blocked

  // ------------------------------------------------------- duplicate check

  /**
   * The children a solver queues, in order: each child whose token is not
   * yet seen, the seen set growing as children are taken.
   */
  function Unseen(ns: seq<Node>, seen: set<string>): seq<Node>
    decreases |ns|
  {
    if ns == [] then []
    else if Token(ns[0].puzzle) in seen then Unseen(ns[1..], seen)
    else [ns[0]] + Unseen(ns[1..], seen + {Token(ns[0].puzzle)})
  }

  /**
   * The children taken are children with tokens not seen before and
   * pairwise different; afterwards the token of every child is seen.
   */
  lemma UnseenFacts(ns: seq<Node>, seen: set<string>)
    ensures forall k :: 0 <= k < |Unseen(ns, seen)| ==>
      Unseen(ns, seen)[k] in ns && Token(Unseen(ns, seen)[k].puzzle) !in seen
    ensures DistinctTokens(Unseen(ns, seen))
    ensures forall m :: m in ns ==> Token(m.puzzle) in seen + TokensOf(Unseen(ns, seen))
  {
    UnseenFrom(ns, seen);
    UnseenDistinct(ns, seen);
    UnseenCovers(ns, seen);
  }

  lemma {:induction false} UnseenFrom(ns: seq<Node>, seen: set<string>)
    ensures forall k :: 0 <= k < |Unseen(ns, seen)| ==>
      Unseen(ns, seen)[k] in ns && Token(Unseen(ns, seen)[k].puzzle) !in seen
    decreases |ns|
  {
    if ns != [] {
      var x, tx := ns[0], Token(ns[0].puzzle);
      assert forall m :: m in ns[1..] ==> m in ns;
      if tx in seen {
        UnseenFrom(ns[1..], seen);
      } else {
        var rest := Unseen(ns[1..], seen + {tx});
        UnseenFrom(ns[1..], seen + {tx});
        var u := [x] + rest;
        assert Unseen(ns, seen) == u;
        forall k | 0 < k < |u| ensures u[k] in ns && Token(u[k].puzzle) !in seen {
          assert u[k] == rest[k - 1];
        }
      }
    }
  }

  lemma {:induction false} UnseenDistinct(ns: seq<Node>, seen: set<string>)
    ensures DistinctTokens(Unseen(ns, seen))
    decreases |ns|
  {
    if ns != [] {
      var x, tx := ns[0], Token(ns[0].puzzle);
      if tx in seen {
        UnseenDistinct(ns[1..], seen);
      } else {
        var rest := Unseen(ns[1..], seen + {tx});
        UnseenDistinct(ns[1..], seen + {tx});
        UnseenFrom(ns[1..], seen + {tx});
        assert Unseen(ns, seen) == [x] + rest;
        DistinctCons(x, rest);
      }
    }
  }

  lemma {:induction false} UnseenCovers(ns: seq<Node>, seen: set<string>)
    ensures forall m :: m in ns ==> Token(m.puzzle) in seen + TokensOf(Unseen(ns, seen))
    decreases |ns|
  {
    if ns != [] {
      var x, tx := ns[0], Token(ns[0].puzzle);
      assert forall m :: m in ns ==> m == x || m in ns[1..];
      if tx in seen {
        UnseenCovers(ns[1..], seen);
      } else {
        var rest := Unseen(ns[1..], seen + {tx});
        UnseenCovers(ns[1..], seen + {tx});
        assert Unseen(ns, seen) == [x] + rest;
        TokensOfAppend([x], rest);
        TokensOfSingle(x);
      }
    }
  }

  /** The inner loop unfolds `Unseen` one child at a time. */
  lemma UnseenAt(ns: seq<Node>, i: int, seen: set<string>)
    requires 0 <= i < |ns|
    ensures Unseen(ns[i..], seen) ==
      if Token(ns[i].puzzle) in seen then Unseen(ns[i + 1..], seen)
      else [ns[i]] + Unseen(ns[i + 1..], seen + {Token(ns[i].puzzle)})
  {
    assert ns[i..][0] == ns[i] && ns[i..][1..] == ns[i + 1..];
  }

  /** A child with an unseen token is taken and its token recorded. */
  lemma UnseenTake(ns: seq<Node>, i: int, repeats: set<string>, taken: seq<Node>, seen: set<string>)
    requires 0 <= i < |ns| && Token(ns[i].puzzle) !in seen
    requires taken + Unseen(ns[i..], seen) == Unseen(ns, repeats)
    requires seen == repeats + TokensOf(taken)
    ensures (taken + [ns[i]]) + Unseen(ns[i + 1..], seen + {Token(ns[i].puzzle)}) == Unseen(ns, repeats)
    ensures seen + {Token(ns[i].puzzle)} == repeats + TokensOf(taken + [ns[i]])
  {
    var x, rest := ns[i], Unseen(ns[i + 1..], seen + {Token(ns[i].puzzle)});
    UnseenAt(ns, i, seen);
    assert taken + ([x] + rest) == (taken + [x]) + rest;
    TokensOfAppend(taken, [x]);
    TokensOfSingle(x);
  }

  /**
   * The inner loop of both solvers: for each child in order, compute its
   * token and take the child if the token is not yet seen, recording it.
   */
  method Discover(newNodes: seq<Node>, repeats: set<string>) returns (taken: seq<Node>, seen: set<string>)
    ensures taken == Unseen(newNodes, repeats)
    ensures seen == repeats + TokensOf(taken)
  {
    taken, seen := [], repeats;
    var i := 0;
    while i < |newNodes|
      invariant 0 <= i <= |newNodes|
      invariant taken + Unseen(newNodes[i..], seen) == Unseen(newNodes, repeats)
      invariant seen == repeats + TokensOf(taken)
    {
      var newNode := newNodes[i];
      var t := GenToken(newNode.puzzle);
      if t in seen {
        UnseenAt(newNodes, i, seen);
      } else {
        UnseenTake(newNodes, i, repeats, taken, seen);
        taken := taken + [newNode];
        seen := seen + {t};
      }
      i := i + 1;
    }
    assert newNodes[i..] == [];
  }

  // --------------------------------------------------------- search state

  lemma DiscoveredInit(root: Node)
    requires Valid(root) && Built(root)
    ensures Discovered(root, [root], {Token(root.puzzle)})
  {
    RootReached(root);
    InUniverse(root, root);
    TokensOfSingle(root);
  }

  /** The state bounds the search: as many tokens as queued nodes, at most the universe. */
  lemma DiscoveredBound(root: Node, pushed: seq<Node>, repeats: set<string>)
    requires Valid(root) && Discovered(root, pushed, repeats)
    ensures |repeats| == |pushed| <= |Universe(root)|
  {
    TokensOfCard(pushed);
    SubsetCardinality(repeats, Universe(root));
  }

  /**
   * Expanding a queued node and queueing its unseen children keeps the
   * state; the expanded node is then explored, and each child taken has
   * one more move than it.
   */
  lemma DiscoverStep(root: Node, pushed: seq<Node>, repeats: set<string>, node: Node,
                     taken: seq<Node>, seen: set<string>)
    requires Valid(root) && Discovered(root, pushed, repeats) && node in pushed
    requires taken == Unseen(Successors(node), repeats) && seen == repeats + TokensOf(taken)
    ensures Discovered(root, pushed + taken, seen)
    ensures Explored(node, seen)
    ensures forall k :: 0 <= k < |taken| ==> taken[k].w == node.w + 1
  {
    var kids := Successors(node);
    UnseenFacts(kids, repeats);
    TokensOfAppend(pushed, taken);
    var all := pushed + taken;
    forall k | 0 <= k < |taken| ensures Reached(taken[k], root) && Token(taken[k].puzzle) in Universe(root) && taken[k].w == node.w + 1 {
      ChildReached(root, node, taken[k]);
      InUniverse(root, taken[k]);
      SuccessorFacts(node, taken[k]);
    }
    forall k | 0 <= k < |all| ensures Reached(all[k], root) {
      if k >= |pushed| {
        assert all[k] == taken[k - |pushed|];
      }
    }
    forall i, j | 0 <= i < j < |all| ensures Token(all[i].puzzle) != Token(all[j].puzzle) {
      if j >= |pushed| {
        assert all[j] == taken[j - |pushed|];
        if i >= |pushed| {
          assert all[i] == taken[i - |pushed|];
        } else {
          assert Token(all[i].puzzle) in TokensOf(pushed);
        }
      }
    }
    assert TokensOf(taken) <= Universe(root);
  }

  /**
   * Expanding the next queued node, a non-goal, and queueing its unseen
   * children extends the expanded prefix by one.
   */
  lemma ClosedExtend(pushed: seq<Node>, e: int, repeats: set<string>, taken: seq<Node>, seen: set<string>)
    requires 0 <= e < |pushed| && repeats <= seen
    requires ClosedUpTo(pushed, e, repeats)
    requires !IsGoal(pushed[e].puzzle) && Explored(pushed[e], seen)
    ensures ClosedUpTo(pushed + taken, e + 1, seen)
  {
    var all := pushed + taken;
    forall k | 0 <= k < e + 1 && k < |all| ensures !IsGoal(all[k].puzzle) && Explored(all[k], seen) {
      assert all[k] == pushed[k];
      if k < e {
        ExploredMono(pushed[k], repeats, seen);
      }
    }
  }

  /** Dequeuing the front and appending the taken children to the queue and to `pushed`. */
  lemma QueueShift(pushed: seq<Node>, e: int, taken: seq<Node>)
    requires 0 <= e < |pushed|
    ensures pushed[e..][1..] + taken == (pushed + taken)[e + 1..]
  {
  }

  /**
   * Dequeuing the front and queueing children one move deeper keeps the
   * queued nodes in order of moves, and keeps the queue layered.
   */
  lemma LayerStep(pushed: seq<Node>, e: int, taken: seq<Node>)
    requires 0 <= e < |pushed| && SortedByMoves(pushed) && Layered(pushed, e)
    requires forall k :: 0 <= k < |taken| ==> taken[k].w == pushed[e].w + 1
    ensures SortedByMoves(pushed + taken) && Layered(pushed + taken, e + 1)
  {
    var all, w := pushed + taken, pushed[e].w + 1;
    forall i, j | 0 <= i < j < |all| ensures all[i].w <= all[j].w {
      if j >= |pushed| {
        assert all[j] == taken[j - |pushed|];
        if i >= |pushed| {
          assert all[i] == taken[i - |pushed|];
        } else if i < e {
          assert pushed[i].w <= pushed[e].w;
        }
      }
    }
    if e + 1 < |all| {
      forall j | e + 1 <= j < |all| ensures all[j].w <= all[e + 1].w + 1 {
        assert all[e + 1].w >= pushed[e].w;
        if j >= |pushed| {
          assert all[j] == taken[j - |pushed|];
        }
      }
    }
  }

  /**
   * The loop invariant of uniform-cost search, `e` nodes expanded: the
   * discovered state, the expanded prefix and the FIFO layering by moves.
   */
  ghost predicate UniformState(root: Node, pushed: seq<Node>, e: int, repeats: set<string>)
    requires Valid(root)
  {
    0 <= e <= |pushed| && Discovered(root, pushed, repeats) && ClosedUpTo(pushed, e, repeats) &&
    SortedByMoves(pushed) && Layered(pushed, e)
  }

  /** One iteration of uniform-cost search on a dequeued node that is not a goal. */
  lemma UniformStep(root: Node, pushed: seq<Node>, e: int, next: int, repeats: set<string>, taken: seq<Node>, seen: set<string>)
    requires Valid(root) && UniformState(root, pushed, e, repeats) && e < |pushed| && next == e + 1
    requires !IsGoal(pushed[e].puzzle)
    requires taken == Unseen(Successors(pushed[e]), repeats) && seen == repeats + TokensOf(taken)
    ensures UniformState(root, pushed + taken, next, seen)
    ensures |repeats| == |pushed| && |seen| == |pushed + taken| <= |Universe(root)|
    ensures pushed[e..][1..] + taken == (pushed + taken)[next..]
  {
    var node := pushed[e];
    DiscoveredBound(root, pushed, repeats);
    DiscoverStep(root, pushed, repeats, node, taken, seen);
    ClosedExtend(pushed, e, repeats, taken, seen);
    LayerStep(pushed, e, taken);
    QueueShift(pushed, e, taken);
    DiscoveredBound(root, pushed + taken, seen);
  }

  /**
   * What uniform-cost search promises on leaving, from its invariant: after
   * a dequeued goal (`expanded - 1` nodes closed), or after the queue ran dry.
   * The queue it leaves, `pushed[expanded..]`, is never longer than the
   * reported maximum.
   */
  ghost predicate UniformPromise(root: Node, result: Outcome, maxQ: int, expanded: int, pushed: seq<Node>)
    requires Valid(root)
  {
    && result != Blocked
    && 1 <= expanded <= |pushed| && 1 <= maxQ <= |pushed| && |pushed| - expanded <= maxQ
    && QueuedFrom(root, pushed) && SortedByMoves(pushed) && NoGoalBefore(pushed, expanded - 1)
    && (result.Solved? ==> result.goal == pushed[expanded - 1] && IsGoal(result.goal.puzzle))
    && (result.Solved? ==> NoShallowerGoal(pushed, result.goal.w))
    && (result.NoSolution? ==> expanded == |pushed| && NoGoalBefore(pushed, |pushed|))
    && (result.NoSolution? ==> AllExplored(pushed))
    && (IsGoal(root.puzzle) ==> result == Solved(root) && expanded == 1)
  }

  /** In a queue ordered by moves, the nodes before the first goal include every shallower one. */
  lemma ShallowerNotGoal(pushed: seq<Node>, e: int)
    requires 0 <= e < |pushed| && SortedByMoves(pushed) && NoGoalBefore(pushed, e)
    ensures NoShallowerGoal(pushed, pushed[e].w)
  {
    forall k | 0 <= k < |pushed| && pushed[k].w < pushed[e].w ensures !IsGoal(pushed[k].puzzle) {
      assert k < e;
    }
  }

  /** A goal root is the first node dequeued. */
  lemma RootGoalFirst(root: Node, pushed: seq<Node>, e: int)
    requires 0 <= e < |pushed| && pushed[0] == root && NoGoalBefore(pushed, e) && IsGoal(root.puzzle)
    ensures e == 0
  {
  }

  /**
   * A goal dequeued as the `expanded`-th node, after `expanded - 1`
   * non-goals; by the order of the queue no shallower queued node is a goal.
   */
  lemma UniformGoal(root: Node, pushed: seq<Node>, expanded: int, maxQ: int, node: Node)
    requires Valid(root) && QueuedFrom(root, pushed) && NoGoalBefore(pushed, expanded - 1)
    requires SortedByMoves(pushed) && 1 <= expanded <= |pushed| && node == pushed[expanded - 1]
    requires IsGoal(node.puzzle) && 1 <= maxQ <= |pushed| && |pushed| - expanded <= maxQ
    ensures UniformPromise(root, Solved(node), maxQ, expanded, pushed)
  {
    ShallowerNotGoal(pushed, expanded - 1);
    if IsGoal(root.puzzle) {
      RootGoalFirst(root, pushed, expanded - 1);
    }
  }

  /** A queue run dry: every queued board expanded, none a goal, their tokens closed under slides. */
  lemma UniformDry(root: Node, pushed: seq<Node>, expanded: int, repeats: set<string>, maxQ: int)
    requires Valid(root) && Discovered(root, pushed, repeats) && expanded == |pushed|
    requires ClosedUpTo(pushed, expanded, repeats) && SortedByMoves(pushed) && 1 <= maxQ <= |pushed|
    ensures UniformPromise(root, NoSolution, maxQ, expanded, pushed)
  {
    ClosedNoGoal(pushed, expanded, repeats);
    assert AllExplored(pushed);
  }

  // ------------------------------------------------------------- solvers

  /**
   * Uniform-cost search with a FIFO queue. `pushed` lists every node ever
   * queued, in order; the first `expanded` of them have been dequeued.
   * The search stops at the first dequeued goal, or reports no solution
   * once every queued board has been expanded. Among the queued nodes none
   * with fewer moves than the goal is a goal; when there is no solution the
   * queued tokens are closed under slides and none of their boards is a goal.
   */
  method UniformCost(root: Node) returns (result: Outcome, maxQ: int, expanded: int, ghost pushed: seq<Node>)
    requires Valid(root) && Built(root)
    ensures UniformPromise(root, result, maxQ, expanded, pushed)
  {
    var queue := [root];
    var token := GenToken(root.puzzle);
    var repeats := {token};
    pushed := [root];
    DiscoveredInit(root);
    assert UniformState(root, pushed, 0, repeats);
    maxQ := 1;
    expanded := 0;
    while queue != []
      invariant 0 <= expanded <= |pushed| && queue == pushed[expanded..]
      invariant 1 <= maxQ <= |pushed| && |queue| <= maxQ
      invariant UniformState(root, pushed, expanded, repeats)
      decreases |Universe(root)| - |repeats|, |queue|
    {
      ghost var done := expanded;
      var node := queue[0];
      assert node == pushed[done] && |pushed| - done <= maxQ;
      queue := queue[1..];
      expanded := expanded + 1;
      FlattenNonEmpty(node.puzzle);
      var solved := CheckGoal(node.puzzle);
      if solved {
        ClosedNoGoal(pushed, done, repeats);
        UniformGoal(root, pushed, expanded, maxQ, node);
        result := Solved(node);
        return;
      }
      var newNodes := MakeMoves(node);
      var taken, seen := Discover(newNodes, repeats);
      UniformStep(root, pushed, done, expanded, repeats, taken, seen);
      assert queue + taken == (pushed + taken)[expanded..];
      queue := queue + taken;
      pushed := pushed + taken;
      repeats := seen;
      if |queue| > maxQ {
        maxQ := |queue|;
      }
    }
    UniformDry(root, pushed, expanded, repeats, maxQ);
    result := NoSolution;
  }

  // --------------------------------------------------------------- A* queue

  /** A queue entry: ordered by priority only, the node riding along. */
  datatype Item = Item(priority: int, node: Node)

  /** Every node carries a priority. */
  predicate AllPriced(ns: seq<Node>) {
    forall k :: 0 <= k < |ns| ==> ns[k].f.Some?
  }

  /** The entry A* queues for a node: its f as priority. */
  function ItemOf(n: Node): (it: Item)
    requires n.f.Some?
    ensures it.node == n && n.f == Some(it.priority)
  {
    Item(n.f.value, n)
  }

  /** The entries for `ns`, one each. */
  function ItemsOf(ns: seq<Node>): multiset<Item>
    requires AllPriced(ns)
  {
    if ns == [] then multiset{} else ItemsOf(ns[..|ns| - 1]) + multiset{ItemOf(ns[|ns| - 1])}
  }

  /** One entry per node. */
  lemma {:induction false} ItemsOfSize(ns: seq<Node>)
    requires AllPriced(ns)
    ensures |ItemsOf(ns)| == |ns|
  {
    if ns != [] {
      var init := ns[..|ns| - 1];
      assert AllPriced(init);
      ItemsOfSize(init);
    }
  }

  /** The entries for `ns` name nodes of `ns` and carry their priorities. */
  lemma {:induction false} ItemsOfNames(ns: seq<Node>)
    requires AllPriced(ns)
    ensures forall it :: it in ItemsOf(ns) ==> it.node in ns && it.node.f == Some(it.priority)
  {
    if ns != [] {
      var init := ns[..|ns| - 1];
      assert AllPriced(init);
      ItemsOfNames(init);
      assert forall m :: m in init ==> m in ns;
    }
  }

  /** Every node of `ns` has its entry among the entries for `ns`. */
  lemma {:induction false} ItemsOfHas(ns: seq<Node>, j: int)
    requires AllPriced(ns) && 0 <= j < |ns|
    ensures ItemOf(ns[j]) in ItemsOf(ns)
  {
    var init := ns[..|ns| - 1];
    if j < |ns| - 1 {
      assert AllPriced(init);
      ItemsOfHas(init, j);
      assert init[j] == ns[j];
    }
  }

  /** With tokens pairwise different, each entry occurs once. */
  lemma {:induction false} ItemsOfOnce(ns: seq<Node>)
    requires AllPriced(ns) && DistinctTokens(ns)
    ensures forall it :: it in ItemsOf(ns) ==> ItemsOf(ns)[it] == 1
  {
    if ns != [] {
      var init, x := ns[..|ns| - 1], ns[|ns| - 1];
      assert AllPriced(init);
      DistinctPrefix(ns, |ns| - 1);
      ItemsOfOnce(init);
      ItemsOfNames(init);
    }
  }

  lemma DistinctPrefix(ns: seq<Node>, n: int)
    requires DistinctTokens(ns) && 0 <= n <= |ns|
    ensures DistinctTokens(ns[..n])
  {
    var init := ns[..n];
    forall i, j | 0 <= i < j < |init| ensures Token(init[i].puzzle) != Token(init[j].puzzle) {
      assert init[i] == ns[i] && init[j] == ns[j];
    }
  }

  /** Two queued nodes with the same token are the same node. */
  lemma SameToken(ns: seq<Node>, a: Node, b: Node)
    requires DistinctTokens(ns) && a in ns && b in ns && Token(a.puzzle) == Token(b.puzzle)
    ensures a == b
  {
    var i :| 0 <= i < |ns| && ns[i] == a;
    var j :| 0 <= j < |ns| && ns[j] == b;
    assert i == j;
  }

  /** A non-empty set of entries has one of least priority. */
  lemma {:induction false} MinExists(s: set<Item>)
    requires s != {}
    ensures exists it :: it in s && forall o :: o in s ==> it.priority <= o.priority
    decreases |s|
  {
    var x :| x in s;
    if s != {x} {
      var rest := s - {x};
      MinExists(rest);
      var m :| m in rest && forall o :: o in rest ==> m.priority <= o.priority;
      if x.priority < m.priority {
        assert forall o :: o in s ==> x.priority <= o.priority;
      } else {
        assert forall o :: o in s ==> m.priority <= o.priority;
      }
    }
  }

  /**
   * `get` on the priority queue: removes an entry of least priority. Which
   * of several entries of equal priority comes out is left open.
   */
  method PopMin(pq: multiset<Item>) returns (it: Item, rest: multiset<Item>)
    requires |pq| > 0
    ensures it in pq && rest == pq - multiset{it}
    ensures forall o :: o in pq ==> it.priority <= o.priority
  {
    var entries := set o | o in pq;
    ghost var x :| x in pq;
    assert x in entries;
    MinExists(entries);
    it :| it in entries && forall o :: o in entries ==> it.priority <= o.priority;
    rest := pq - multiset{it};
  }

  /**
   * Each entry of the priority queue occurs once, names a queued node whose
   * token is not expanded and carries that node's f.
   */
  ghost predicate QueueEntries(pushed: seq<Node>, closed: set<string>, pq: multiset<Item>) {
    forall it :: it in pq ==>
      pq[it] == 1 && it.node in pushed && it.node.f == Some(it.priority) && Token(it.node.puzzle) !in closed
  }

  /** `n` still has its entry, carrying its f, in the priority queue. */
  predicate Waiting(n: Node, pq: multiset<Item>) {
    n.f.Some? && ItemOf(n) in pq
  }

  /** Every queued node whose token is not expanded still has its entry. */
  ghost predicate Pending(pushed: seq<Node>, closed: set<string>, pq: multiset<Item>) {
    forall k :: 0 <= k < |pushed| && Token(pushed[k].puzzle) !in closed ==> Waiting(pushed[k], pq)
  }

  /**
   * Popping one entry and queueing the entries of the new nodes leaves an
   * entry for every queued node whose token is not expanded.
   */
  lemma PendingStep(pushed: seq<Node>, closed: set<string>, pq: multiset<Item>, it: Item,
                    rest: multiset<Item>, taken: seq<Node>)
    requires DistinctTokens(pushed + taken) && AllPriced(taken) && Pending(pushed, closed, pq)
    requires it in pq && it.node in pushed && rest == pq - multiset{it}
    requires forall m :: m in taken ==> Token(m.puzzle) !in TokensOf(pushed)
    ensures Pending(pushed + taken, closed + {Token(it.node.puzzle)}, rest + ItemsOf(taken))
  {
    var all, t := pushed + taken, Token(it.node.puzzle);
    forall k | 0 <= k < |all| && Token(all[k].puzzle) !in closed + {t}
      ensures Waiting(all[k], rest + ItemsOf(taken))
    {
      if k < |pushed| {
        assert all[k] == pushed[k];
        assert Waiting(pushed[k], pq);
        assert ItemOf(pushed[k]) != it;
      } else {
        assert all[k] == taken[k - |pushed|];
        ItemsOfHas(taken, k - |pushed|);
      }
    }
  }

  /** Popping an entry closes the token of its node: the other entries stay. */
  lemma PopEntries(pushed: seq<Node>, closed: set<string>, pq: multiset<Item>, it: Item, rest: multiset<Item>)
    requires DistinctTokens(pushed) && QueueEntries(pushed, closed, pq)
    requires it in pq && rest == pq - multiset{it}
    ensures QueueEntries(pushed, closed + {Token(it.node.puzzle)}, rest)
  {
    forall o | o in rest ensures Token(o.node.puzzle) != Token(it.node.puzzle) {
      assert o in pq && o != it;
      if Token(o.node.puzzle) == Token(it.node.puzzle) {
        SameToken(pushed, o.node, it.node);
      }
    }
  }

  /** No token of a newly queued node is already known. */
  lemma TakenUnknown(pushed: seq<Node>, taken: seq<Node>)
    requires DistinctTokens(pushed + taken)
    ensures forall m :: m in taken ==> Token(m.puzzle) !in TokensOf(pushed)
  {
    var all := pushed + taken;
    forall m | m in taken ensures Token(m.puzzle) !in TokensOf(pushed) {
      var j :| 0 <= j < |taken| && taken[j] == m;
      assert all[|pushed| + j] == m;
      forall i | 0 <= i < |pushed| ensures Token(pushed[i].puzzle) != Token(m.puzzle) {
        assert all[i] == pushed[i];
      }
    }
  }

  /** Queueing the entries of newly queued nodes keeps each entry single and named. */
  lemma PushEntries(pushed: seq<Node>, closed: set<string>, rest: multiset<Item>, taken: seq<Node>)
    requires AllPriced(taken) && DistinctTokens(pushed + taken)
    requires QueueEntries(pushed, closed, rest) && closed <= TokensOf(pushed)
    ensures QueueEntries(pushed + taken, closed, rest + ItemsOf(taken))
  {
    var all, added := pushed + taken, ItemsOf(taken);
    DistinctSuffix(pushed, taken);
    ItemsOfNames(taken);
    ItemsOfOnce(taken);
    TakenUnknown(pushed, taken);
    forall o | o in rest + added
      ensures (rest + added)[o] == 1 && o.node in all && Token(o.node.puzzle) !in closed
    {
      if o in rest {
        var i :| 0 <= i < |pushed| && pushed[i] == o.node;
        assert all[i] == o.node;
        assert Token(o.node.puzzle) in TokensOf(pushed);
        assert o !in added;
      } else {
        var j :| 0 <= j < |taken| && taken[j] == o.node;
        assert all[|pushed| + j] == o.node;
      }
    }
  }

  lemma DistinctSuffix(pushed: seq<Node>, taken: seq<Node>)
    requires DistinctTokens(pushed + taken)
    ensures DistinctTokens(taken)
  {
    var all := pushed + taken;
    forall i, j | 0 <= i < j < |taken| ensures Token(taken[i].puzzle) != Token(taken[j].puzzle) {
      assert all[|pushed| + i] == taken[i] && all[|pushed| + j] == taken[j];
    }
  }

  // ------------------------------------------------------------------- A*

  /**
   * The loop invariant of A*: the discovered state; `closed` holds the
   * tokens of the expanded nodes, none a goal, all explored; the priority
   * queue holds exactly one entry for each other queued node.
   */
  ghost predicate AStarState(root: Node, pushed: seq<Node>, repeats: set<string>, closed: set<string>, pq: multiset<Item>)
    requires Valid(root)
  {
    Discovered(root, pushed, repeats) && AllPriced(pushed) && closed <= repeats &&
    ClosedTokens(pushed, closed, repeats) &&
    QueueEntries(pushed, closed, pq) && Pending(pushed, closed, pq) && |pq| + |closed| == |pushed|
  }

  /** The queued nodes whose tokens are expanded: none is a goal, all are explored. */
  ghost predicate ClosedTokens(pushed: seq<Node>, closed: set<string>, seen: set<string>) {
    forall k :: 0 <= k < |pushed| && Token(pushed[k].puzzle) in closed ==>
      !IsGoal(pushed[k].puzzle) && Explored(pushed[k], seen)
  }

  /** Expanding a queued non-goal node closes its token and explores it. */
  lemma CloseStep(pushed: seq<Node>, closed: set<string>, repeats: set<string>, node: Node,
                  taken: seq<Node>, seen: set<string>)
    requires DistinctTokens(pushed + taken) && node in pushed && repeats <= seen
    requires closed <= TokensOf(pushed) && forall m :: m in taken ==> Token(m.puzzle) !in TokensOf(pushed)
    requires ClosedTokens(pushed, closed, repeats) && !IsGoal(node.puzzle) && Explored(node, seen)
    ensures ClosedTokens(pushed + taken, closed + {Token(node.puzzle)}, seen)
  {
    var all := pushed + taken;
    forall k | 0 <= k < |all| && Token(all[k].puzzle) in closed + {Token(node.puzzle)}
      ensures !IsGoal(all[k].puzzle) && Explored(all[k], seen)
    {
      assert k < |pushed|;
      assert all[k] == pushed[k];
      if Token(pushed[k].puzzle) == Token(node.puzzle) {
        assert pushed[k] in pushed;
        SameToken(all, pushed[k], node);
      }
    }
  }

  /** Every node reached from a root with a heuristic carries a priority. */
  lemma ReachedPriced(root: Node, ns: seq<Node>)
    requires Valid(root) && root.h != NoHeuristic
    requires forall k :: 0 <= k < |ns| ==> Reached(ns[k], root)
    ensures AllPriced(ns)
  {
  }

  lemma AStarInit(root: Node)
    requires Valid(root) && Built(root) && root.h != NoHeuristic
    ensures AStarState(root, [root], {Token(root.puzzle)}, {}, multiset{ItemOf(root)})
  {
    DiscoveredInit(root);
    ReachedPriced(root, [root]);
  }

  lemma SuffixPriced(pushed: seq<Node>, taken: seq<Node>)
    requires AllPriced(pushed + taken)
    ensures AllPriced(taken)
  {
    var all := pushed + taken;
    forall j | 0 <= j < |taken| ensures taken[j].f.Some? {
      assert taken[j] == all[|pushed| + j];
    }
  }

  lemma TokenOfQueued(pushed: seq<Node>, n: Node)
    requires n in pushed
    ensures Token(n.puzzle) in TokensOf(pushed)
  {
    var j :| 0 <= j < |pushed| && pushed[j] == n;
  }

  /** Popping the entry of a queued non-goal node and queueing its unseen children. */
  lemma AStarStep(root: Node, pushed: seq<Node>, repeats: set<string>, closed: set<string>, pq: multiset<Item>,
                  it: Item, rest: multiset<Item>, taken: seq<Node>, seen: set<string>)
    requires Valid(root) && root.h != NoHeuristic && AStarState(root, pushed, repeats, closed, pq)
    requires it in pq && rest == pq - multiset{it} && !IsGoal(it.node.puzzle)
    requires Valid(it.node) && taken == Unseen(Successors(it.node), repeats) && seen == repeats + TokensOf(taken)
    ensures AllPriced(taken) && Token(it.node.puzzle) !in closed
    ensures AStarState(root, pushed + taken, seen, closed + {Token(it.node.puzzle)}, rest + ItemsOf(taken))
    ensures |seen| == |pushed + taken| <= |Universe(root)|
  {
    var node, t := it.node, Token(it.node.puzzle);
    var all := pushed + taken;
    DiscoverStep(root, pushed, repeats, node, taken, seen);
    DiscoveredBound(root, all, seen);
    ReachedPriced(root, all);
    SuffixPriced(pushed, taken);
    TokenOfQueued(pushed, node);
    TakenUnknown(pushed, taken);
    PopEntries(pushed, closed, pq, it, rest);
    PushEntries(pushed, closed + {t}, rest, taken);
    PendingStep(pushed, closed, pq, it, rest, taken);
    ItemsOfSize(taken);
    assert |rest + ItemsOf(taken)| + |closed + {t}| == |all|;
    CloseStep(pushed, closed, repeats, node, taken, seen);
  }

  /** A popped entry names a queued, well-formed node. */
  lemma Queued(root: Node, pushed: seq<Node>, repeats: set<string>, closed: set<string>, pq: multiset<Item>, it: Item)
    requires Valid(root) && AStarState(root, pushed, repeats, closed, pq) && it in pq
    ensures it.node in pushed && Valid(it.node) && IsRect(it.node.puzzle)
  {
    var k :| 0 <= k < |pushed| && pushed[k] == it.node;
    assert Reached(pushed[k], root);
  }

  /** A goal root is never expanded, so it is the first entry popped. */
  lemma AStarRootGoal(root: Node, pushed: seq<Node>, repeats: set<string>, closed: set<string>, pq: multiset<Item>, it: Item)
    requires Valid(root) && AStarState(root, pushed, repeats, closed, pq)
    requires |closed| == 0 ==> pq == multiset{ItemOf(root)}
    requires |closed| > 0 ==> Token(root.puzzle) in closed
    requires it in pq && IsGoal(root.puzzle)
    ensures closed == {} && it.node == root
  {
    assert pushed[0] == root;
    assert Token(root.puzzle) !in closed;
    assert pq == multiset{ItemOf(root)};
  }

  /** A goal popped as the entry of least priority. */
  lemma AStarGoal(root: Node, pushed: seq<Node>, repeats: set<string>, closed: set<string>, pq: multiset<Item>,
                  it: Item, rest: multiset<Item>, maxQ: int)
    requires Valid(root) && AStarState(root, pushed, repeats, closed, pq)
    requires |closed| == 0 ==> pq == multiset{ItemOf(root)}
    requires |closed| > 0 ==> Token(root.puzzle) in closed
    requires it in pq && rest == pq - multiset{it} && forall o :: o in pq ==> it.priority <= o.priority
    requires IsGoal(it.node.puzzle) && |pq| <= maxQ
    ensures AStarPromise(root, Solved(it.node), maxQ, |closed| + 1, pushed, rest)
  {
    forall o | o in rest ensures rest[o] == 1 && o.node in pushed && o.node.f == Some(o.priority) && it.priority <= o.priority {
      assert o in pq;
    }
    GoalLeaves(pushed, repeats, closed, pq, it, rest);
    if IsGoal(root.puzzle) {
      AStarRootGoal(root, pushed, repeats, closed, pq, it);
    }
  }

  /**
   * When the goal's entry is popped, every other queued node is either
   * expanded or still has its entry.
   */
  lemma GoalLeaves(pushed: seq<Node>, repeats: set<string>, closed: set<string>, pq: multiset<Item>,
                   it: Item, rest: multiset<Item>)
    requires repeats == TokensOf(pushed) && ClosedTokens(pushed, closed, repeats) && Pending(pushed, closed, pq)
    requires it in pq && rest == pq - multiset{it} && it.node.f == Some(it.priority)
    ensures forall k :: 0 <= k < |pushed| ==>
      || pushed[k] == it.node
      || Waiting(pushed[k], rest)
      || (!IsGoal(pushed[k].puzzle) && Explored(pushed[k], TokensOf(pushed)))
  {
    forall k | 0 <= k < |pushed| && pushed[k] != it.node && Token(pushed[k].puzzle) !in closed
      ensures Waiting(pushed[k], rest)
    {
      assert Waiting(pushed[k], pq);
      assert ItemOf(pushed[k]) != it;
    }
  }

  /** The queue ran empty: the wait that never ends. */
  lemma AStarBlocked(root: Node, pushed: seq<Node>, repeats: set<string>, closed: set<string>, pq: multiset<Item>, maxQ: int)
    requires Valid(root) && AStarState(root, pushed, repeats, closed, pq)
    requires |closed| == 0 ==> pq == multiset{ItemOf(root)}
    requires |pq| == 0 && 1 <= maxQ
    ensures AStarPromise(root, Blocked, maxQ, |closed|, pushed, pq)
  {
    DiscoveredBound(root, pushed, repeats);
    SubsetFull(closed, repeats);
  }

  lemma AddOne<T>(s: set<T>, x: T)
    requires x !in s
    ensures |s + {x}| == |s| + 1
  {
  }

  lemma SubsetFull<T>(a: set<T>, b: set<T>)
    requires a <= b && |a| == |b|
    ensures a == b
  {
    assert |b - a| == |b| - |a|;
  }

  /**
   * What A* promises on leaving: never "no solution"; the goal it returns
   * was queued and had the least priority in the queue it leaves behind,
   * which holds one entry for every queued node other than the goal that
   * was not expanded (an expanded node is a non-goal whose children are
   * queued), and as many entries as queued nodes not expanded; a
   * wait on the empty queue only once every queued board is expanded, none
   * is a goal and their tokens are closed under slides.
   */
  ghost predicate AStarPromise(root: Node, result: Outcome, maxQ: int, expanded: int, pushed: seq<Node>, left: multiset<Item>)
    requires Valid(root)
  {
    && result != NoSolution
    && 1 <= expanded <= |pushed| && pushed[0] == root
    && 1 <= maxQ && |left| <= maxQ
    && (forall k :: 0 <= k < |pushed| ==> Reached(pushed[k], root))
    && DistinctTokens(pushed)
    && (result.Solved? ==>
         && result.goal in pushed && IsGoal(result.goal.puzzle) && result.goal.f.Some?
         && |left| + expanded == |pushed|
         && (forall it :: it in left ==>
               left[it] == 1 && it.node in pushed && it.node.f == Some(it.priority) &&
               result.goal.f.value <= it.priority)
         && forall k :: 0 <= k < |pushed| ==>
              || pushed[k] == result.goal
              || Waiting(pushed[k], left)
              || (!IsGoal(pushed[k].puzzle) && Explored(pushed[k], TokensOf(pushed))))
    && (result.Blocked? ==>
         && left == multiset{} && expanded == |pushed|
         && forall k :: 0 <= k < |pushed| ==> !IsGoal(pushed[k].puzzle) && Explored(pushed[k], TokensOf(pushed)))
    && (IsGoal(root.puzzle) ==> result == Solved(root) && expanded == 1)
  }

  /**
   * A* over a priority queue of (f, node) entries. The loop test is the
   * queue object itself, which is always true; on an empty queue `get`
   * waits forever, which the model reports as `Blocked`.
   */
  method AStar(root: Node) returns (result: Outcome, maxQ: int, expanded: int, ghost pushed: seq<Node>, ghost left: multiset<Item>)
    requires Valid(root) && Built(root) && root.h != NoHeuristic
    ensures AStarPromise(root, result, maxQ, expanded, pushed, left)
  {
    var nodes := multiset{ItemOf(root)};
    var token := GenToken(root.puzzle);
    var repeats := {token};
    pushed := [root];
    ghost var closed: set<string> := {};
    AStarInit(root);
    DiscoveredBound(root, pushed, repeats);
    maxQ := 1;
    expanded := 0;
    while true
      invariant AStarState(root, pushed, repeats, closed, nodes)
      invariant expanded == |closed| && 1 <= maxQ && |nodes| <= maxQ
      invariant expanded == 0 ==> nodes == multiset{ItemOf(root)}
      invariant expanded > 0 ==> Token(root.puzzle) in closed
      invariant |repeats| == |pushed| <= |Universe(root)|
      decreases |Universe(root)| - |repeats|, |nodes|
    {
      if |nodes| == 0 {
        AStarBlocked(root, pushed, repeats, closed, nodes, maxQ);
        result, left := Blocked, nodes;
        return;
      }
      var item, rest := PopMin(nodes);
      var node := item.node;
      Queued(root, pushed, repeats, closed, nodes, item);
      expanded := expanded + 1;
      FlattenNonEmpty(node.puzzle);
      var solved := CheckGoal(node.puzzle);
      if solved {
        AStarGoal(root, pushed, repeats, closed, nodes, item, rest, maxQ);
        result, left := Solved(node), rest;
        return;
      }
      var newNodes := MakeMoves(node);
      var taken, seen := Discover(newNodes, repeats);
      AStarStep(root, pushed, repeats, closed, nodes, item, rest, taken, seen);
      AddOne(closed, Token(node.puzzle));
      nodes := rest + ItemsOf(taken);
      pushed := pushed + taken;
      repeats := seen;
      closed := closed + {Token(node.puzzle)};
      if |nodes| > maxQ {
        maxQ := |nodes|;
      }
    }
  }

  /** What the driver needs of a uniform-cost run: never a wait; a goal below the root. */
  lemma UniformEnds(root: Node, result: Outcome, maxQ: int, expanded: int, pushed: seq<Node>)
    requires Valid(root) && UniformPromise(root, result, maxQ, expanded, pushed)
    ensures !result.Blocked? && 1 <= expanded && 1 <= maxQ
    ensures result.Solved? ==> IsGoal(result.goal.puzzle) && DescendsFrom(result.goal, root)
  {
    if result.Solved? {
      assert Reached(pushed[expanded - 1], root);
    }
  }

  /** No queued goal has a smaller f than the goal A* returns. */
  lemma AStarLeastGoal(root: Node, result: Outcome, maxQ: int, expanded: int, pushed: seq<Node>, left: multiset<Item>)
    requires Valid(root) && AStarPromise(root, result, maxQ, expanded, pushed, left) && result.Solved?
    ensures forall k :: 0 <= k < |pushed| && IsGoal(pushed[k].puzzle) ==>
      pushed[k].f.Some? && result.goal.f.value <= pushed[k].f.value
  {
    forall k | 0 <= k < |pushed| && IsGoal(pushed[k].puzzle)
      ensures pushed[k].f.Some? && result.goal.f.value <= pushed[k].f.value
    {
      if pushed[k] != result.goal {
        assert Waiting(pushed[k], left);
        assert ItemOf(pushed[k]) in left;
      }
    }
  }

  /** What the driver needs of an A* run: never "no solution"; a goal below the root. */
  lemma AStarEnds(root: Node, result: Outcome, maxQ: int, expanded: int, pushed: seq<Node>, left: multiset<Item>)
    requires Valid(root) && AStarPromise(root, result, maxQ, expanded, pushed, left)
    ensures !result.NoSolution? && 1 <= expanded && 1 <= maxQ
    ensures result.Solved? ==> IsGoal(result.goal.puzzle) && DescendsFrom(result.goal, root)
  {
    if result.Solved? {
      var k :| 0 <= k < |pushed| && pushed[k] == result.goal;
      assert Reached(pushed[k], root);
    }
  }
}
